=== FILE: README.md ===
# Egardia / Woonveilig alarm adapter in Dafny

This project models `EgardiaDevice`, the Python class that talks to an Egardia or
Woonveilig alarm panel over its HTTP interface. The model covers:

- the firmware-version gate of the constructor;
- the authentication-retry loop around every request;
- reading the alarm mode (`getstate`);
- fetching, repairing and normalising the sensor list (`getsensors`, `parseJson`);
- the per-sensor readings (`getsensor`, `getsensorstate`, `getlockstate`, `getlocks`);
- the commands (`alarm_disarm`, `alarm_arm_home`, `alarm_arm_away`, `sendcondition`,
  `set_lock_state`).

The panel is a **script**: a sequence of replies, one used per request in the order
the requests are made. A reply is either a body or the transport raising. Every
operation returns an `Exchange`. It holds the outcome (a value, or the exception
that escapes as an `Error`) and the exact requests sent. This makes endpoints,
payloads and retry counts part of the contracts. Operations that make several
calls pass the rest of the script on with `Drop`.

Python's string primitives are written out in `PyStr`:

- `find` answers -1 when the text is absent;
- slices clamp their bounds and read a negative bound from the end;
- `replace` works left to right on non-overlapping matches;
- `upper` and `lower` cover ASCII and Latin-1 letters.

These primitives matter. A missing marker makes the code slice from `skip - 1`. A
missing delimiter makes `[:-1]` drop the last character. The lemmas in `Slicing`,
`PanelState` and `Commands` state these cases.

Modules, in dependency order:

| module | file | role |
|---|---|---|
| `Outcomes` | outcomes.dfy | `Option`, `Result`, and the `Error` vocabulary (one constructor per Python exception) |
| `PyStr` | pystr.dfy | `find`, `in`, slicing, `replace`, `upper` and `lower` |
| `Versions` | versions.dfy | the five firmware names and the constructor's gate |
| `Transport` | transport.dfy | requests, the reply script, `statusunauthorized`, `dorequestwithretry` |
| `Slicing` | slicing.dfy | the marker/skip/delimiter cut shared by `getstate` and `sendcondition` |
| `PanelState` | panelstate.dfy | `getstate` and the GATE-03 mode mapping |
| `QuasiJson` | quasijson.dfy | the text repair of `parseJson` |
| `SensorList` | sensorlist.dfy | `getsensors`, `getsensor` |
| `SensorViews` | sensorviews.dfy | `getsensorstate`, `getlockstate`, `getlocks` |
| `Commands` | commands.dfy | alarm mode codes, `sendcondition`, `set_lock_state` |
| `EgardiaDevice` | egardiadevice.dfy | construction, `update`, `state` |

## Model

All source paths are in `src/pythonegardia/egardiadevice.py`.

| member | source | states |
|---|---|---|
| Versions.ParseVersion | src/pythonegardia/egardiadevice.py:43-45 | The configured name is accepted exactly when its upper-cased form is one of the five supported names. The accepted version's name is that upper-cased form. A refused name raises the version error with the upper-cased name. |
| Versions.ParseName | src/pythonegardia/egardiadevice.py:9 | Each supported name parses back to its own version. |
| Versions.ParseIgnoresCase | src/pythonegardia/egardiadevice.py:43-44 | The gate gives the same answer for a name and for its upper-cased form. |
| Versions.ParseLowerCase | src/pythonegardia/egardiadevice.py:43-44 | A lower-case configuration such as `gate-03` selects GATE-03. |
| Versions.NameInjective | src/pythonegardia/egardiadevice.py:9 | Different versions have different names. |
| Transport.AnyMessage | src/pythonegardia/egardiadevice.py:58-63 | The unauthorized check is true exactly when the text contains one of the listed messages. |
| Transport.StatusUnauthorized | src/pythonegardia/egardiadevice.py:58-63 | A reply is a refusal exactly when it contains `Unauthorized` or `Access Denied`. |
| Transport.RequestWithRetry | src/pythonegardia/egardiadevice.py:65-80 | Every request sent is the given one, and there are at most `maxretries + 1` of them. Every reply before the last was a refusal. A returned body is the last reply, unchanged, and holds no refusal marker. `UnauthorizedError` is raised exactly when all `maxretries + 1` replies were refusals, and then exactly `maxretries + 1` requests were sent. A transport error comes from the last reply. It fails on the unbound `statustext` exactly when `maxretries` is negative, and then sends nothing. |
| Transport.Attempts | src/pythonegardia/egardiadevice.py:67-75 | The loop from attempt `k`: it sends between `k + 1` and `n` requests, stops at the first clean body, and raises `UnauthorizedError` exactly when all `n` replies were refusals, after sending all `n` requests. |
| Transport.RetryReturnsFirstCleanBody | src/pythonegardia/egardiadevice.py:65-80 | For any `maxretries`, when the replies before attempt `k <= maxretries` were refusals and reply `k` is a clean body, that body is returned unchanged after exactly `k + 1` identical requests. |
| Transport.RetryAbsorbsOneRefusal | src/pythonegardia/egardiadevice.py:65-80 | With the default single retry, one refusal followed by a clean body yields that body after exactly two identical requests. |
| Transport.NoRetryRefusalIsFinal | src/pythonegardia/egardiadevice.py:65-80 | With no retries, a single refusal raises `UnauthorizedError` after one request. |
| PyStr.Find | src/pythonegardia/egardiadevice.py:89-98 | `find` is -1 exactly when the pattern is absent, and otherwise gives the leftmost occurrence. |
| PyStr.ClampIndex | src/pythonegardia/egardiadevice.py:97-99 | A slice bound inside the text is kept. A negative bound counts from the end, and a bound past either end is clamped to that end. |
| PyStr.SliceFrom | src/pythonegardia/egardiadevice.py:97 | `s[a:]` is the suffix from `a` for a bound inside the text, and empty for a bound at or past the end. A negative bound keeps that many final characters, and a bound below `-len(s)` keeps the whole text. |
| PyStr.SliceTo | src/pythonegardia/egardiadevice.py:99 | `s[:b]` is the prefix of length `b` for a bound inside the text, and the whole text past the end. A negative bound drops that many final characters, so `b = -1` drops exactly the last character, and a bound below `-len(s)` gives the empty text. |
| PyStr.ReplaceAll | src/pythonegardia/egardiadevice.py:288-293 | `str.replace` of a pattern by itself is the identity. A replacement of the pattern's length keeps the text's length, and a shorter one never lengthens it. |
| PyStr.ReplaceAbsent | src/pythonegardia/egardiadevice.py:288-293 | `replace` leaves a text without the pattern unchanged. |
| PyStr.ReplaceAtFirst | src/pythonegardia/egardiadevice.py:288-293 | `replace` keeps the text before the leftmost match, substitutes the match, and continues after it. |
| PyStr.Upper | src/pythonegardia/egardiadevice.py:43 | `upper` keeps the length and maps every character on its own. |
| PyStr.UpperIdempotent | src/pythonegardia/egardiadevice.py:104 | Upper-casing twice is upper-casing once. |
| PyStr.Lower | src/pythonegardia/egardiadevice.py:207-209 | `lower` keeps the length and maps every character on its own, with the model's ASCII and Latin-1 case mapping. |
| Slicing.CutFromFound | src/pythonegardia/egardiadevice.py:97-99 | When the delimiter occurs, the cut is the text from the start index up to its first occurrence. |
| Slicing.CutFromMissingDelimiter | src/pythonegardia/egardiadevice.py:97-99 | When the delimiter is missing, `find` gives -1 and the cut loses the last character of the text. |
| Slicing.CutAfterMissing | src/pythonegardia/egardiadevice.py:89-97 | When the marker is missing, the cut starts at `skip - 1`. |
| Slicing.CutBetween | src/pythonegardia/egardiadevice.py:89-99 | When the skip equals the marker's length, the cut is the text strictly between the leftmost marker and the next delimiter. |
| PanelState.MarkerOf | src/pythonegardia/egardiadevice.py:88-96 | Each version except GATE-04 has a marker, and its skip equals the marker's length. |
| PanelState.MapGate03 | src/pythonegardia/egardiadevice.py:11 | The mapped state is always ARM, HOME, DISARM or UNKNOWN. It is UNKNOWN exactly when the upper-cased token is not a GATE-03 mode name. |
| PanelState.ParseState | src/pythonegardia/egardiadevice.py:88-104 | GATE-04 fails on the unbound `ind1`. On GATE-03 the state is the table lookup of the token, with UNKNOWN as the default, so it is always canonical. The other versions give the upper-cased token. |
| PanelState.GetState | src/pythonegardia/egardiadevice.py:82-104 | `getstate` sends only `panelCondGet`, with one retry, and passes on retry failures. A body the retry loop returns is read as `ParseState` reads it. On GATE-03 it succeeds only with a canonical state. |
| PanelState.GetStateFromReply | src/pythonegardia/egardiadevice.py:82-104 | A state that `getstate` returns is the reading of the last reply to the state query. |
| PanelState.StateBetweenQuotes | src/pythonegardia/egardiadevice.py:88-104 | When the marker is present, the state is the upper-cased text between the marker and the next `"`. |
| PanelState.Gate03StateBetweenQuotes | src/pythonegardia/egardiadevice.py:91-102 | On GATE-03, the text between the marker and the next `"` is looked up, upper-cased, in the mode table, and UNKNOWN is the default. |
| PanelState.StateWithoutMarker | src/pythonegardia/egardiadevice.py:88-99 | A body without the marker is not rejected. The token is read from index `skip - 1`. |
| PanelState.Gate03StateWithoutMarker | src/pythonegardia/egardiadevice.py:91-102 | On GATE-03 a body without the marker is read from index 12, and the token is then looked up, so an unmapped token gives UNKNOWN. |
| QuasiJson.QuoteNamesAbsent | src/pythonegardia/egardiadevice.py:291-293 | Quoting does nothing when no unquoted property name occurs. |
| QuasiJson.Repair | src/pythonegardia/egardiadevice.py:288-293 | The repair is the identity on text that contains none of the patterns it rewrites. |
| QuasiJson.RepairNotIdempotent | src/pythonegardia/egardiadevice.py:288-289 | The repair is not idempotent. `**//` becomes `*/`, and repairing that gives the empty text. |
| SensorList.Renamed | src/pythonegardia/egardiadevice.py:136-156 | A kept row gets `type` from the version's type field and `id` from the version's identity field (GATE-04 keeps `no`). The old field is removed, and every other field is unchanged. |
| SensorList.Normalise | src/pythonegardia/egardiadevice.py:125-157 | The loop succeeds exactly when every row has its type field and, unless ignored, its identity field. Otherwise the first row that fails raises `KeyError` for its type field when that is absent, and for its identity field otherwise. Every entry is stored under its own identity and has a kind that is not ignored. |
| SensorList.NormaliseKeyAt | src/pythonegardia/egardiadevice.py:134-156 | An identity is in the result exactly when some kept row carries it. |
| SensorList.NormaliseValueAt | src/pythonegardia/egardiadevice.py:134-156 | The entry for an identity is the renamed copy of the last kept row that carries it. |
| SensorList.ParseSensors | src/pythonegardia/egardiadevice.py:119-157 | A refusal raises `UnauthorizedError`, and `is not defined` raises the version error. Otherwise a decoder error passes through, and decoded rows give their normalised list. A success is well shaped. |
| SensorList.ParsedSensorIsLastRow | src/pythonegardia/egardiadevice.py:125-157 | An id in a parsed list maps to the renamed copy of the last kept row that carries it in the decoded reply. |
| SensorList.ParsedSensorAbsent | src/pythonegardia/egardiadevice.py:125-157 | An id is missing from a parsed list exactly when no kept row of the decoded reply carries it. |
| SensorList.GetSensors | src/pythonegardia/egardiadevice.py:106-157 | GATE-04 raises the version error before any request. The other versions query their list endpoint with one retry and parse the body. A success is well shaped. |
| SensorList.GetSensorsFromReply | src/pythonegardia/egardiadevice.py:106-157 | A list `getsensors` returns is the parsed last reply to the list query. |
| SensorList.GetSensor | src/pythonegardia/egardiadevice.py:159-164 | `getsensor` sends what `getsensors` sends and passes on its failures. After a successful fetch it succeeds with the fetched entry for the id, or `None` when there is none. A found sensor carries that id and a kind that is not ignored. |
| SensorList.GetSensorFromReply | src/pythonegardia/egardiadevice.py:106-164 | What `getsensor` returns is the entry for the id in the list parsed from the last reply to the list query, or `None`. |
| SensorViews.DoorOpen | src/pythonegardia/egardiadevice.py:168-181 | The older panels need `cond`, and the reading is open exactly when `cond` is non-empty. GATE-03 and GATE-04 need `status`. The reading is open exactly on an open word, closed exactly on a closed word, and none otherwise. |
| SensorViews.GetSensorState | src/pythonegardia/egardiadevice.py:166-183 | The answer is none for an unknown id and otherwise the sensor's reading. Failures of the fetch pass through. |
| SensorViews.LockReading | src/pythonegardia/egardiadevice.py:187-193 | `status` is required. The lock is locked exactly on DOOR CLOSE and unlocked exactly on DOOR OPEN. |
| SensorViews.GetLockState | src/pythonegardia/egardiadevice.py:185-193 | An unknown id fails on subscripting `None`. Otherwise the answer is the lock reading of the sensor. |
| SensorViews.LockMirrorsDoor | src/pythonegardia/egardiadevice.py:176-193 | On the English door words, locked is the inverse reading of open. |
| SensorViews.DanishLockWordsUnknown | src/pythonegardia/egardiadevice.py:176-193 | The Danish words give a door reading but an unknown lock state. |
| SensorViews.LockStateMirrorsSensorState | src/pythonegardia/egardiadevice.py:166-193 | On the same panel replies, `getlockstate` is locked exactly when `getsensorstate` is closed, and unlocked exactly when it is open. |
| SensorViews.Locks | src/pythonegardia/egardiadevice.py:195-202 | The locks are exactly the sensors whose kind contains `Door Lock`, unchanged. |
| SensorViews.GetLocks | src/pythonegardia/egardiadevice.py:195-202 | `getlocks` sends what `getsensors` sends and passes on its failures. After a successful fetch its result is the fetched sensors whose kind contains `Door Lock`, unchanged, and it is well shaped. |
| Commands.ModeCode | src/pythonegardia/egardiadevice.py:242-267 | The version's panel reads the posted mode back as the same command (`CommandOf`). On GATE-03/04, 0, 1 and 2 are disarm, away and home. On the older panels, 0 and 1 are away and home, and disarm is 2 on WV-1716 and 4 on GATE-01/02. |
| Commands.ModeCodesDistinct | src/pythonegardia/egardiadevice.py:242-267 | On each version the three commands post three different modes. |
| Commands.ModeCodesDifferAcrossGenerations | src/pythonegardia/egardiadevice.py:242-267 | The older panels and GATE-03/04 use a different mode for every command. |
| Commands.SendCondition | src/pythonegardia/egardiadevice.py:270-283 | `sendcondition` posts `area 1` with the given mode to `panelCondPost`, one or two times. It passes on retry failures and answers the cut of the reply. |
| Commands.ConditionResult | src/pythonegardia/egardiadevice.py:279-282 | The result text never contains a comma and is shorter than a non-empty reply. |
| Commands.ConditionResultBetween | src/pythonegardia/egardiadevice.py:279-283 | The answer is the text between `result : ` and the next comma. |
| Commands.ConditionResultWithoutComma | src/pythonegardia/egardiadevice.py:279-283 | With no comma after the marker, the answer drops the last character of the reply. |
| Commands.Alarm | src/pythonegardia/egardiadevice.py:242-267 | Each alarm command posts the version's mode for it to `panelCondPost`, once or twice, as the retry loop sends it. Retry failures pass through, which are only the authorization or transport errors. When the retry loop returns a body, the answer is that body's result text. |
| Commands.AlarmCommandsPostDifferently | src/pythonegardia/egardiadevice.py:242-267 | Different commands on the same version send different requests. |
| Commands.SwitchValue | src/pythonegardia/egardiadevice.py:207-212 | The switch is `1` exactly for `lock` and `0` exactly for `unlock`, in any case, and is refused otherwise. |
| Commands.LockWordAnyCase | src/pythonegardia/egardiadevice.py:207 | With the model's `lower`, `state.lower() == "lock"` holds exactly for the four-letter spellings of `lock` in any mix of ASCII cases. |
| Commands.PostSwitch | src/pythonegardia/egardiadevice.py:213-220 | The switch is posted to `deviceSwitchPSSPost` once or twice, as the retry loop sends it. Retry failures pass through, and a returned body gives a success. A success is true exactly when the last reply contains `result : 1`. |
| Commands.SwitchAfterFetch | src/pythonegardia/egardiadevice.py:206-220 | A failed fetch is passed on. An invalid state raises `ValueError` with nothing posted. A valid state after a successful fetch posts the door's switch, `1` for lock and `0` for unlock, and answers what that post answers. A success is true exactly when the last reply contains `result : 1`. |
| Commands.SetLockState | src/pythonegardia/egardiadevice.py:204-220 | Failures of `getsensors` pass through. An invalid state is refused with no post. Otherwise the switch is posted after the fetch's requests and its answer is returned. The requests begin with those of `getsensors`, and every later one switches the door to `1` for lock and `0` for unlock. |
| EgardiaDevice.Construct | src/pythonegardia/egardiadevice.py:37-49 | An unsupported name is refused before any request. Failures of `getsensors` and then of `getstate` pass through. Otherwise the device holds the upper-cased version (never GATE-04), the fetched sensors and the state read. Its sensors are well shaped, and on GATE-03 its state is canonical. It took two to four requests. |
| EgardiaDevice.ConstructedSensorsFromReply | src/pythonegardia/egardiadevice.py:37-49 | A constructed device's sensors are the list parsed from the last reply to the sensor query. |
| EgardiaDevice.ConstructedStateFromReply | src/pythonegardia/egardiadevice.py:37-49 | A constructed device's state is the reading of the last reply, which answers the state query. |
| EgardiaDevice.Gate04NeverConstructs | src/pythonegardia/egardiadevice.py:43-49 | A GATE-04 configuration passes the name check but fails with the version error, and sends nothing. |
| EgardiaDevice.ConstructIgnoresCase | src/pythonegardia/egardiadevice.py:43 | Names that differ only in case construct identically. |
| EgardiaDevice.Update | src/pythonegardia/egardiadevice.py:54-56 | `update` sends what `getstate` sends and replaces only the state. Version and sensors are unchanged, and on GATE-03 the new state is canonical. |

## Left out

- The HTTP layer (`dorequest`, `buildurl`), host, port and credentials. Requests are values, and the panel's replies are a script.
- `json.loads` and the `senrows` lookup. They are the `decode` parameter, and decoder errors pass through as its `Error`.
- Logging (`_LOGGER`). The alarm commands compute the result text only to log it, and `Alarm` returns it.
- The initial `state` argument of the constructor. Construction either fails or replaces it through `update`.
- The `self._sensors` cache written by `getsensor` and the constructor. `Device` keeps the list read at construction.
- The `try: ... except: raise` wrappers. They re-raise unchanged, so every error passes through as is.
- Concurrency between calls on one device.
- PyStr.Lower: case mapping covers only ASCII and the Latin-1 capitals. Python lowers characters beyond Latin-1 as well, such as KELVIN SIGN to `k`, and `İ` becomes two characters. So `set_lock_state` accepts spellings of `lock` that the model refuses.
- PyStr.Upper: case mapping covers only ASCII and the Latin-1 letters. Python maps ÿ, µ, ß and characters beyond Latin-1 as well, and `ß` even changes the length.
- Commands.Alarm: the Python methods return `None`. The model returns the logged result text.
- SensorList.Normalise: Python mutates the decoded rows in place. The model builds renamed copies, and the decoded rows are not observed afterwards.
- The values of sensor fields are strings. The decoder may produce numbers or other JSON values, and `len(sensor['cond'])` on a number would raise.

=== FILE: commands.dfy ===
/**
  Commands sent to the panel: the three alarm modes through
  `panelCondPost`, and locking or unlocking a door lock through
  `deviceSwitchPSSPost`.
 */
module Commands {
  import opened Outcomes
  import opened PyStr
  import opened Slicing
  import opened Versions
  import opened Transport
  import opened SensorList

  /** The three alarm commands. */
  datatype AlarmCommand = Disarm | ArmHome | ArmAway

  /**
    How a panel of the given version reads a posted mode number: GATE-03 and
    GATE-04 count 0, 1, 2 as disarm, away, home; the older panels use 0 for
    away and 1 for home, and 2 (WV-1716) or 4 (GATE-01, GATE-02) for disarm.
   */
  function CommandOf(v: Version, mode: int): (r: Option<AlarmCommand>)
    ensures r.Some? ==> 0 <= mode <= 4
  {
    if v in {Gate03, Gate04} then
      if mode == 0 then Some(Disarm) else if mode == 1 then Some(ArmAway)
      else if mode == 2 then Some(ArmHome) else None
    else if mode == 0 then Some(ArmAway)
    else if mode == 1 then Some(ArmHome)
    else if mode == (if v == WV1716 then 2 else 4) then Some(Disarm)
    else None
  }

  /** The `mode` value each version expects for each command: the panel reads it back as that command. */
  function ModeCode(c: AlarmCommand, v: Version): (r: int)
    ensures CommandOf(v, r) == Some(c)
  {
    match c
    case Disarm => (match v case Gate01 | Gate02 => 4 case Gate03 | Gate04 => 0 case WV1716 => 2)
    case ArmHome => if v in {Gate03, Gate04} then 2 else 1
    case ArmAway => if v in {Gate03, Gate04} then 1 else 0
  }

  /** On every version the three commands send three different modes. */
  lemma ModeCodesDistinct(v: Version, c: AlarmCommand, d: AlarmCommand)
    requires c != d
    ensures ModeCode(c, v) != ModeCode(d, v)
  {
    assert CommandOf(v, ModeCode(c, v)) != CommandOf(v, ModeCode(d, v));
  }

  /** The older panels and the newer ones agree on no command's mode. */
  lemma ModeCodesDifferAcrossGenerations(c: AlarmCommand, older: Version, newer: Version)
    requires older in {WV1716, Gate01, Gate02} && newer in {Gate03, Gate04}
    ensures ModeCode(c, older) != ModeCode(c, newer)
  {
  }

  /** The text in front of the result code in a `panelCondPost` reply. */
  const ResultMarker: string := "result : "

  /** The `panelCondPost` request for area 1 in the given mode. */
  function ConditionRequest(mode: int): Request {
    Request(Post, "panelCondPost", PanelCondition("1", mode))
  }

  /**
    The result text of a `panelCondPost` reply: from nine past `result : ` to
    the next comma. It never holds a comma and is shorter than the reply.
   */
  function ConditionResult(body: string): (r: string)
    ensures !Contains(r, ",")
    ensures body != [] ==> |r| < |body|
  {
    var a := Find(body, ResultMarker) + 9;
    CutFromHasNoDelimiter(body, a, ",");
    if body != [] then CutFromShorter(body, a, ","); CutFrom(body, a, ",")
    else CutFrom(body, a, ",")
  }

  /** `sendcondition`: post the mode with one retry and cut the result out of the reply. */
  function SendCondition(mode: int, script: Script): (r: Exchange<string>)
    ensures var ex := RequestWithRetry(script, ConditionRequest(mode), 1);
      && r.sent == ex.sent
      && (ex.outcome.Failure? ==> r.outcome == ex.outcome)
      && (ex.outcome.Success? ==> r.outcome == Success(ConditionResult(ex.outcome.value)))
    ensures 1 <= |r.sent| <= 2
    ensures forall j | 0 <= j < |r.sent| :: r.sent[j] == ConditionRequest(mode)
  {
    var ex := RequestWithRetry(script, ConditionRequest(mode), 1);
    match ex.outcome
    case Failure(e) => Exchange(Failure(e), ex.sent)
    case Success(body) => Exchange(Success(ConditionResult(body)), ex.sent)
  }

  /**
    The result of a reply holding `result : ` is the text between that
    marker and the next comma.
   */
  lemma ConditionResultBetween(body: string, i: nat, j: nat)
    requires FirstOccurrence(body, ResultMarker, i)
    requires i + 9 <= j
    requires OccursAt(body, ",", j)
    requires forall k | i + 9 <= k < j :: !OccursAt(body, ",", k)
    ensures ConditionResult(body) == body[i + 9..j]
  {
    CutBetween(body, ResultMarker, ",", i, j);
  }

  /**
    With no comma after the marker the final slice `[:-1]` drops the last
    character of the reply instead of stopping at a comma.
   */
  lemma ConditionResultWithoutComma(body: string, i: nat)
    requires FirstOccurrence(body, ResultMarker, i)
    requires i + 9 < |body|
    requires !Contains(body[i + 9..], ",")
    ensures ConditionResult(body) == body[i + 9..|body| - 1]
  {
    CutAfterFound(body, ResultMarker, 9, ",", i);
    CutFromMissingDelimiter(body, i + 9, ",");
  }

  /**
    `alarm_disarm`, `alarm_arm_home` and `alarm_arm_away`: the command's mode
    for the version is posted; the result text is what the adapter logs.
   */
  function Alarm(c: AlarmCommand, v: Version, script: Script): (r: Exchange<string>)
    ensures 1 <= |r.sent| <= 2
    ensures forall j | 0 <= j < |r.sent| ::
      r.sent[j].verb == Post && r.sent[j].action == "panelCondPost" &&
      r.sent[j].payload == PanelCondition("1", ModeCode(c, v))
    ensures r.outcome.Failure? ==> r.outcome.error in {Unauthorized, TransportFailure}
    ensures var ex := RequestWithRetry(script, ConditionRequest(ModeCode(c, v)), 1);
      && r.sent == ex.sent
      && (ex.outcome.Failure? ==> r.outcome == ex.outcome)
      && (ex.outcome.Success? ==> r.outcome == Success(ConditionResult(ex.outcome.value)))
  {
    SendCondition(ModeCode(c, v), script)
  }

  /** Two different commands on the same version are told apart by what is posted. */
  lemma AlarmCommandsPostDifferently(v: Version, c: AlarmCommand, d: AlarmCommand, script: Script)
    requires c != d
    ensures Alarm(c, v, script).sent[0] != Alarm(d, v, script).sent[0]
  {
    ModeCodesDistinct(v, c, d);
  }

  /** The `switch` value for a requested lock state: `1` locks, `0` unlocks, anything else is refused. */
  function SwitchValue(state: string): (r: Option<string>)
    ensures r == Some("1") <==> Lower(state) == "lock"
    ensures r == Some("0") <==> Lower(state) == "unlock"
    ensures r.None? <==> Lower(state) !in {"lock", "unlock"}
  {
    var s := Lower(state);
    if s == "lock" then Some("1")
    else if s == "unlock" then Some("0")
    else None
  }

  /** The `deviceSwitchPSSPost` request for one door. */
  function SwitchRequest(doorId: string, switch: string): Request {
    Request(Post, "deviceSwitchPSSPost", DeviceSwitch(doorId, switch))
  }

  /** The text of a `deviceSwitchPSSPost` reply that reports success. */
  const SwitchAccepted: string := "result : 1"

  /** The switch post with one retry; the answer is whether the reply reports `result : 1`. */
  function PostSwitch(script: Script, doorId: string, switch: string): (r: Exchange<bool>)
    ensures 1 <= |r.sent| <= 2
    ensures forall j | 0 <= j < |r.sent| :: r.sent[j] == SwitchRequest(doorId, switch)
    ensures r.outcome.Success? ==>
      && ReplyAt(script, |r.sent| - 1).Body?
      && (r.outcome.value <==> Contains(ReplyAt(script, |r.sent| - 1).text, SwitchAccepted))
    ensures r.outcome.Failure? ==> r.outcome.error in {Unauthorized, TransportFailure}
    ensures var ex := RequestWithRetry(script, SwitchRequest(doorId, switch), 1);
      && r.sent == ex.sent
      && (ex.outcome.Failure? ==> r.outcome == Failure(ex.outcome.error))
      && (ex.outcome.Success? ==> r.outcome.Success?)
  {
    var ex := RequestWithRetry(script, SwitchRequest(doorId, switch), 1);
    match ex.outcome
    case Failure(e) => Exchange(Failure(e), ex.sent)
    case Success(body) => Exchange(Success(Contains(body, SwitchAccepted)), ex.sent)
  }

  /**
    The part of `set_lock_state` after the sensors were fetched: the
    requested state is checked before anything is posted, and the switch is
    posted to the door. The replies to the fetch are the first
    `|fetched.sent|` of the script.
   */
  function SwitchAfterFetch(fetched: Exchange<Option<Row>>, script: Script, doorId: string, state: string): (r: Exchange<bool>)
    ensures |fetched.sent| <= |r.sent| && r.sent[..|fetched.sent|] == fetched.sent
    ensures fetched.outcome.Failure? ==> r == Exchange(Failure(fetched.outcome.error), fetched.sent)
    ensures fetched.outcome.Success? && Lower(state) !in {"lock", "unlock"} ==>
      r == Exchange(Failure(InvalidLockState), fetched.sent)
    ensures forall j | |fetched.sent| <= j < |r.sent| ::
      r.sent[j] == SwitchRequest(doorId, if Lower(state) == "lock" then "1" else "0")
    ensures r.outcome.Success? ==>
      && |fetched.sent| < |r.sent|
      && ReplyAt(script, |r.sent| - 1).Body?
      && (r.outcome.value <==> Contains(ReplyAt(script, |r.sent| - 1).text, SwitchAccepted))
    ensures fetched.outcome.Success? && SwitchValue(state).Some? ==>
      var post := PostSwitch(Drop(script, |fetched.sent|), doorId, SwitchValue(state).value);
      r == Exchange(post.outcome, fetched.sent + post.sent)
  {
    match fetched.outcome
    case Failure(e) => Exchange(Failure(e), fetched.sent)
    case Success(_) =>
      match SwitchValue(state)
      case None => Exchange(Failure(InvalidLockState), fetched.sent)
      case Some(switch) =>
        var n := |fetched.sent|;
        var post := PostSwitch(Drop(script, n), doorId, switch);
        var sent := fetched.sent + post.sent;
        assert ReplyAt(script, |sent| - 1) == ReplyAt(Drop(script, n), |post.sent| - 1);
        Exchange(post.outcome, sent)
  }

  /**
    `set_lock_state`: the sensors are fetched first (the result is not
    used), an unknown state is refused without posting, and otherwise the
    switch is posted to the door and answered as `SwitchAfterFetch` states.
   */
  function SetLockState(v: Version, script: Script, decode: Decoder, doorId: string, state: string): (r: Exchange<bool>)
    ensures var fetch := GetSensors(v, script, decode);
      if fetch.outcome.Failure? then r == Exchange(Failure(fetch.outcome.error), fetch.sent)
      else if Lower(state) !in {"lock", "unlock"} then r == Exchange(Failure(InvalidLockState), fetch.sent)
      else
        var post := PostSwitch(Drop(script, |fetch.sent|), doorId, SwitchValue(state).value);
        r == Exchange(post.outcome, fetch.sent + post.sent)
    ensures var fetch := GetSensors(v, script, decode);
      && |fetch.sent| <= |r.sent| && r.sent[..|fetch.sent|] == fetch.sent
      && forall j | |fetch.sent| <= j < |r.sent| ::
           r.sent[j] == SwitchRequest(doorId, if Lower(state) == "lock" then "1" else "0")
  {
    var fetch := GetSensor(v, script, decode, doorId);
    assert fetch.sent == GetSensors(v, script, decode).sent;
    assert fetch.outcome.Failure? <==> GetSensors(v, script, decode).outcome.Failure?;
    SwitchAfterFetch(fetch, script, doorId, state)
  }

  /** `state.lower() == "lock"` accepts exactly the four-letter spellings of "lock" in any case. */
  lemma LockWordAnyCase(state: string)
    ensures Lower(state) == "lock" <==>
      && |state| == 4
      && (state[0] == 'l' || state[0] == 'L')
      && (state[1] == 'o' || state[1] == 'O')
      && (state[2] == 'c' || state[2] == 'C')
      && (state[3] == 'k' || state[3] == 'K')
  {
    LockLiteral(Lower(state));
    if |state| == 4 {
      LowerCharInverse(state[0], 'l', 'L');
      LowerCharInverse(state[1], 'o', 'O');
      LowerCharInverse(state[2], 'c', 'C');
      LowerCharInverse(state[3], 'k', 'K');
    }
  }

  /** The literal "lock", letter by letter. */
  lemma LockLiteral(w: string)
    ensures w == "lock" <==> |w| == 4 && w[0] == 'l' && w[1] == 'o' && w[2] == 'c' && w[3] == 'k'
  {
    if |w| == 4 && w[0] == 'l' && w[1] == 'o' && w[2] == 'c' && w[3] == 'k' {
      assert w == "lock";
    }
  }

  /** Lowering an ASCII letter back from its capital or itself, and from nothing else. */
  lemma LowerCharInverse(c: char, lower: char, upper: char)
    requires 'a' <= lower <= 'z' && upper as int == lower as int - 32
    ensures LowerChar(c) == lower <==> c == lower || c == upper
  {
  }
}

=== FILE: egardiadevice.dfy ===
/**
  The adapter object: construction behind the version gate, which fetches the
  sensors and then the alarm state, and `update`, which refreshes the state.
  Host, port and credentials only shape the HTTP requests, which are not
  modelled; the initial state passed to the constructor is always replaced.
 */
module EgardiaDevice {
  import opened Outcomes
  import opened PyStr
  import opened Versions
  import opened Transport
  import opened SensorList
  import opened PanelState

  /** A constructed adapter: its firmware, the last alarm state read (what `state()` returns), and the sensors read at construction. */
  datatype Device = Device(version: Version, status: string, sensors: Sensors)

  /**
    The constructor: an unsupported name is refused before any request; then
    the sensors are fetched and the state is read from the replies that follow.
   */
  function Construct(version: string, script: Script, decode: Decoder): (r: Exchange<Device>)
    ensures Upper(version) !in SupportedVersions ==>
      r == Exchange(Failure(VersionUnsupported(Upper(version))), [])
    ensures r.outcome.Success? ==>
      var d := r.outcome.value;
      && Name(d.version) == Upper(version)
      && d.version != Gate04
      && WellShaped(d.version, d.sensors)
      && (d.version == Gate03 ==> d.status in CanonicalStates)
      && 2 <= |r.sent| <= 4
    ensures ParseVersion(version).Success? ==>
      var v := ParseVersion(version).value;
      var fetch := GetSensors(v, script, decode);
      && (fetch.outcome.Failure? ==> r == Exchange(Failure(fetch.outcome.error), fetch.sent))
      && (fetch.outcome.Success? ==>
            var state := GetState(v, Drop(script, |fetch.sent|));
            && r.sent == fetch.sent + state.sent
            && (state.outcome.Failure? ==> r.outcome == Failure(state.outcome.error))
            && (state.outcome.Success? ==>
                  r.outcome == Success(Device(v, state.outcome.value, fetch.outcome.value))))
  {
    match ParseVersion(version)
    case Failure(e) => Exchange(Failure(e), [])
    case Success(v) => Assemble(v, GetSensors(v, script, decode), script)
  }

  /** The constructor once the sensors were fetched: the state is read from the replies that follow. */
  function Assemble(v: Version, fetch: Exchange<Sensors>, script: Script): Exchange<Device> {
    match fetch.outcome
    case Failure(e) => Exchange(Failure(e), fetch.sent)
    case Success(sensors) =>
      var state := GetState(v, Drop(script, |fetch.sent|));
      var sent := fetch.sent + state.sent;
      match state.outcome
      case Failure(e) => Exchange(Failure(e), sent)
      case Success(status) => Exchange(Success(Device(v, status, sensors)), sent)
  }

  /** The state of an assembled device is the reading of the last reply. */
  lemma AssembledStateFromReply(v: Version, fetch: Exchange<Sensors>, script: Script) returns (body: string)
    requires Assemble(v, fetch, script).outcome.Success?
    ensures var r := Assemble(v, fetch, script);
      && r.sent != [] && LastReply(script, r.sent) == Body(body)
      && r.outcome.value.version == v
      && ParseState(v, body) == Success(r.outcome.value.status)
  {
    var rest := Drop(script, |fetch.sent|);
    AssembleUnfolds(v, fetch, script);
    body := GetStateFromReply(v, rest);
    LastReplyAfter(script, fetch.sent, GetState(v, rest).sent);
  }

  /** An assembled device means the sensor fetch and the state read after it both succeeded; it holds their results. */
  lemma AssembleUnfolds(v: Version, fetch: Exchange<Sensors>, script: Script)
    requires Assemble(v, fetch, script).outcome.Success?
    ensures var state := GetState(v, Drop(script, |fetch.sent|));
      && fetch.outcome.Success? && state.outcome.Success?
      && Assemble(v, fetch, script) == Exchange(Success(Device(v, state.outcome.value, fetch.outcome.value)), fetch.sent + state.sent)
  {
  }

  /** A constructed device holds the list parsed from the last reply to the sensor query. */
  lemma ConstructedSensorsFromReply(version: string, script: Script, decode: Decoder) returns (body: string)
    requires Construct(version, script, decode).outcome.Success?
    ensures var d := Construct(version, script, decode).outcome.value;
      var n := |GetSensors(d.version, script, decode).sent|;
      && 0 < n
      && ReplyAt(script, n - 1) == Body(body)
      && ParseSensors(d.version, body, decode) == Success(d.sensors)
  {
    var v := ParseVersion(version).value;
    body := GetSensorsFromReply(v, script, decode);
  }

  /** A constructed device holds the state read from the last reply, the answer to the state query. */
  lemma ConstructedStateFromReply(version: string, script: Script, decode: Decoder) returns (body: string)
    requires Construct(version, script, decode).outcome.Success?
    ensures var r := Construct(version, script, decode);
      && LastReply(script, r.sent) == Body(body)
      && ParseState(r.outcome.value.version, body) == Success(r.outcome.value.status)
  {
    var v := ParseVersion(version).value;
    ConstructAssembles(version, script, decode);
    body := AssembledStateFromReply(v, GetSensors(v, script, decode), script);
  }

  /** A supported name builds the device from the sensor fetch and the replies after it. */
  lemma ConstructAssembles(version: string, script: Script, decode: Decoder)
    requires ParseVersion(version).Success?
    ensures var v := ParseVersion(version).value;
      Construct(version, script, decode) == Assemble(v, GetSensors(v, script, decode), script)
  {
  }

  /** GATE-04 passes the name check but is refused by `getsensors` before any request. */
  lemma Gate04NeverConstructs(version: string, script: Script, decode: Decoder)
    requires Upper(version) == "GATE-04"
    ensures Construct(version, script, decode) == Exchange(Failure(VersionUnsupported("GATE-04")), [])
  {
    var v := ParseVersion(version).value;
    NameInjective(v, Gate04);
  }

  /** The configured name is matched without regard to case. */
  lemma ConstructIgnoresCase(s: string, t: string, script: Script, decode: Decoder)
    requires Upper(s) == Upper(t)
    ensures Construct(s, script, decode) == Construct(t, script, decode)
  {
    SameUpperSameVersion(s, t);
  }

  /** `update`: the state is read again; version and sensors are unchanged. */
  function Update(d: Device, script: Script): (r: Exchange<Device>)
    ensures var state := GetState(d.version, script);
      && r.sent == state.sent
      && (state.outcome.Failure? ==> r.outcome == Failure(state.outcome.error))
      && (state.outcome.Success? ==> r.outcome.Success? && r.outcome.value.status == state.outcome.value)
    ensures r.outcome.Success? ==>
      r.outcome.value.version == d.version && r.outcome.value.sensors == d.sensors
    ensures d.version == Gate03 && r.outcome.Success? ==> r.outcome.value.status in CanonicalStates
  {
    var state := GetState(d.version, script);
    match state.outcome
    case Failure(e) => Exchange(Failure(e), state.sent)
    case Success(status) => Exchange(Success(d.(status := status)), state.sent)
  }
}

=== FILE: outcomes.dfy ===
/**
  Result and Option wrappers, and the error vocabulary of the Egardia adapter.

  The Python code signals failures by raising exceptions; each exception that
  can escape one of the modelled operations is a constructor of `Error`.
 */
module Outcomes {

  /** Python's `None` versus a present value. */
  datatype Option<+T> = None | Some(value: T)

  /** Either the value an operation returns or the exception it raises. */
  datatype Result<+T> = Success(value: T) | Failure(error: Error)

  /** The exceptions the modelled operations can raise. */
  datatype Error =
    /** `VersionError`: the firmware version is not served (constructor, or GATE-04 in `getsensors`). */
    | VersionUnsupported(name: string)
    /** `VersionError`: the panel answered the sensor query with `... is not defined`. */
    | VersionMismatch
    /** `UnauthorizedError`: the panel still refused the credentials after the last retry. */
    | Unauthorized
    /** Whatever the HTTP layer raises (connection error, timeout); passed through unretried. */
    | TransportFailure
    /** `UnboundLocalError`: a local variable read before any branch assigned it. */
    | Unbound(variable: string)
    /** `KeyError` on a dictionary lookup. */
    | MissingKey(key: string)
    /** `TypeError`: subscripting the `None` returned for an absent sensor. */
    | NoneSubscript
    /** `ValueError`: a lock command other than "lock" or "unlock". */
    | InvalidLockState
    /** The JSON decoder rejected the repaired text, or its top level was not as expected. */
    | Malformed
}

=== FILE: panelstate.dfy ===
/**
  `getstate`: reading the alarm mode out of the `panelCondGet` response.

  Each version has its own marker in front of the mode token; the token runs
  from `skip` characters after the marker's index to the next `"`. GATE-03
  reports verbose mode names that are mapped onto ARM/HOME/DISARM, anything
  else becoming UNKNOWN. GATE-04 has no branch, so the marker's index is never
  assigned and reading it fails.
 */
module PanelState {
  import opened Outcomes
  import opened PyStr
  import opened Slicing
  import opened Versions
  import opened Transport

  /** The text in front of the mode token and how far past its index the token starts. */
  datatype ModeMarker = ModeMarker(marker: string, skip: nat)

  /** The per-version marker; GATE-04 has none. */
  function MarkerOf(v: Version): (r: Option<ModeMarker>)
    ensures r.None? <==> v == Gate04
    ensures r.Some? ==> r.value.skip == |r.value.marker|
  {
    match v
    case Gate01 | Gate02 => Some(ModeMarker("mode_a1 : \"", 11))
    case Gate03 => Some(ModeMarker("\"mode_a1\" : \"", 13))
    case WV1716 => Some(ModeMarker("mode_st : \"", 11))
    case Gate04 => None
  }

  /** GATE-03's verbose mode names and the canonical state each stands for. */
  const Gate03States: map<string, string> := map[
    "FULL ARM" := "ARM",
    "HOME ARM 1" := "HOME",
    "HOME ARM 2" := "HOME",
    "HOME ARM 3" := "HOME",
    "DISARM" := "DISARM"]

  /** The canonical states GATE-03 is reduced to. */
  const CanonicalStates: set<string> := {"ARM", "HOME", "DISARM", "UNKNOWN"}

  /** `GATE03_STATES_MAPPING.get(token.upper(), "UNKNOWN")` */
  function MapGate03(token: string): (r: string)
    ensures r in CanonicalStates
    ensures Upper(token) in Gate03States <==> r != "UNKNOWN"
  {
    var u := Upper(token);
    if u in Gate03States then Gate03States[u] else "UNKNOWN"
  }

  /** The raw token of the body: the text from the marker's index plus skip to the next `"`. */
  function Token(m: ModeMarker, body: string): string {
    CutAfter(body, m.marker, m.skip, "\"")
  }

  /** Lines 88-104 of `getstate`, applied to a body the retry loop returned. */
  function ParseState(v: Version, body: string): (r: Result<string>)
    ensures r.Failure? <==> v == Gate04
    ensures r.Failure? ==> r.error == Unbound("ind1")
    ensures v == Gate03 ==> r == Success(MapGate03(Token(MarkerOf(v).value, body)))
    ensures v == Gate03 ==> r.Success? && r.value in CanonicalStates
    ensures v !in {Gate03, Gate04} ==> r == Success(Upper(Token(MarkerOf(v).value, body)))
  {
    match MarkerOf(v)
    case None => Failure(Unbound("ind1"))
    case Some(m) =>
      var token := Token(m, body);
      if v == Gate03 then CanonicalIsUpper(MapGate03(token)); Success(Upper(MapGate03(token)))
      else Success(Upper(token))
  }

  /** The canonical names contain no lower-case letter. */
  lemma CanonicalIsUpper(s: string)
    requires s in CanonicalStates
    ensures Upper(s) == s
  {
    UpperArm();
    UpperHome();
    UpperDisarm();
    UpperUnknown();
  }

  // One literal per lemma keeps each proof small.
  lemma UpperArm() ensures Upper("ARM") == "ARM" {}
  lemma UpperHome() ensures Upper("HOME") == "HOME" {}
  lemma UpperDisarm() ensures Upper("DISARM") == "DISARM" {}
  lemma UpperUnknown() ensures Upper("UNKNOWN") == "UNKNOWN" {}

  /** The `panelCondGet` query `getstate` makes. */
  const StateQuery: Request := Request(Get, "panelCondGet", NoPayload)

  /** `getstate`: query with the default single retry, then read the mode. */
  function GetState(v: Version, script: Script): (r: Exchange<string>)
    ensures r.sent == RequestWithRetry(script, StateQuery, 1).sent
    ensures r.outcome.Success? ==> v != Gate04
    ensures RequestWithRetry(script, StateQuery, 1).outcome.Failure? ==>
      r.outcome == RequestWithRetry(script, StateQuery, 1).outcome
    ensures var ex := RequestWithRetry(script, StateQuery, 1);
      ex.outcome.Success? ==> r.outcome == ParseState(v, ex.outcome.value)
    ensures v == Gate03 && r.outcome.Success? ==> r.outcome.value in CanonicalStates
  {
    var ex := RequestWithRetry(script, StateQuery, 1);
    match ex.outcome
    case Failure(e) => Exchange(Failure(e), ex.sent)
    case Success(body) => Exchange(ParseState(v, body), ex.sent)
  }

  /** A state read is the one parsed from the last reply to the state query. */
  lemma GetStateFromReply(v: Version, script: Script) returns (body: string)
    requires GetState(v, script).outcome.Success?
    ensures var r := GetState(v, script);
      && 0 < |r.sent|
      && ReplyAt(script, |r.sent| - 1) == Body(body)
      && ParseState(v, body) == r.outcome
  {
    body := RequestWithRetry(script, StateQuery, 1).outcome.value;
  }

  /**
    For a body containing the version's marker, the state is the upper-cased
    text strictly between the end of the leftmost marker and the next `"`.
   */
  lemma StateBetweenQuotes(v: Version, body: string, i: nat, j: nat)
    requires v !in {Gate03, Gate04}
    requires FirstOccurrence(body, MarkerOf(v).value.marker, i)
    requires i + |MarkerOf(v).value.marker| <= j
    requires OccursAt(body, "\"", j)
    requires forall k | i + |MarkerOf(v).value.marker| <= k < j :: !OccursAt(body, "\"", k)
    ensures ParseState(v, body) == Success(Upper(body[i + |MarkerOf(v).value.marker|..j]))
  {
    CutBetween(body, MarkerOf(v).value.marker, "\"", i, j);
  }

  /**
    For GATE-03 the token between the marker and the next `"` is looked up,
    upper-cased, in the verbose-name table; a name outside it gives UNKNOWN.
   */
  lemma Gate03StateBetweenQuotes(body: string, i: nat, j: nat)
    requires FirstOccurrence(body, "\"mode_a1\" : \"", i)
    requires i + 13 <= j
    requires OccursAt(body, "\"", j)
    requires forall k | i + 13 <= k < j :: !OccursAt(body, "\"", k)
    ensures var u := Upper(body[i + 13..j]);
      ParseState(Gate03, body) == Success(if u in Gate03States then Gate03States[u] else "UNKNOWN")
  {
    CutBetween(body, "\"mode_a1\" : \"", "\"", i, j);
    var u := Upper(body[i + 13..j]);
    CanonicalIsUpper(MapGate03(body[i + 13..j]));
  }

  /**
    A body without the marker is not rejected: `find` gives -1 and the token
    is read from index `skip - 1` of the body instead.
   */
  lemma StateWithoutMarker(v: Version, body: string)
    requires v !in {Gate03, Gate04}
    requires !Contains(body, MarkerOf(v).value.marker)
    ensures ParseState(v, body) == Success(Upper(CutFrom(body, MarkerOf(v).value.skip - 1, "\"")))
  {
    CutAfterMissing(body, MarkerOf(v).value.marker, MarkerOf(v).value.skip, "\"");
  }

  /**
    The same holds on GATE-03: without the marker the token is read from
    index 12 and then looked up, so an unmapped token gives UNKNOWN.
   */
  lemma Gate03StateWithoutMarker(body: string)
    requires !Contains(body, "\"mode_a1\" : \"")
    ensures ParseState(Gate03, body) == Success(MapGate03(CutFrom(body, 12, "\"")))
  {
    CutAfterMissing(body, "\"mode_a1\" : \"", 13, "\"");
  }
}

=== FILE: pystr.dfy ===
/**
  The few Python `str` operations the adapter relies on: the substring test
  `p in t`, `t.find(p)` (which answers -1 instead of raising), slices with
  Python's clamping of out-of-range and negative bounds, `t.replace(p, q)`,
  and `upper()`/`lower()` restricted to ASCII and Latin-1 letters.
 */
module PyStr {

  /** `p` occurs in `t` starting at index `i`. */
  predicate OccursAt(t: string, p: string, i: int) {
    0 <= i && i + |p| <= |t| && t[i..i + |p|] == p
  }

  /** Python's `p in t` on strings. */
  predicate Contains(t: string, p: string) {
    exists i | 0 <= i <= |t| :: OccursAt(t, p, i)
  }

  /** `i` is the leftmost occurrence of `p` in `t`. */
  predicate FirstOccurrence(t: string, p: string, i: int) {
    OccursAt(t, p, i) && forall k | 0 <= k < i :: !OccursAt(t, p, k)
  }

  /** `t.find(p)`: the leftmost occurrence of `p`, or -1 when there is none. */
  function Find(t: string, p: string): (r: int)
    ensures r == -1 <==> !Contains(t, p)
    ensures r != -1 ==> FirstOccurrence(t, p, r)
  {
    FindFrom(t, p, 0)
  }

  /** The leftmost occurrence of `p` at or after `i`, knowing there is none before `i`. */
  function FindFrom(t: string, p: string, i: nat): (r: int)
    requires i <= |t|
    requires forall k | 0 <= k < i :: !OccursAt(t, p, k)
    ensures r == -1 <==> !Contains(t, p)
    ensures r != -1 ==> i <= r && FirstOccurrence(t, p, r)
    decreases |t| - i
  {
    if i + |p| > |t| then -1
    else if t[i..i + |p|] == p then assert OccursAt(t, p, i); i
    else FindFrom(t, p, i + 1)
  }

  /** An occurrence of `p` in a suffix of `t` is an occurrence in `t`, shifted. */
  lemma OccursInSuffix(t: string, p: string, a: nat, k: int)
    requires a <= |t|
    ensures OccursAt(t[a..], p, k) <==> 0 <= k && OccursAt(t, p, a + k)
  {
    if 0 <= k && a + k + |p| <= |t| {
      assert t[a..][k..k + |p|] == t[a + k..a + k + |p|];
    }
  }

  /** Where Python puts a slice bound `i` of a string of length `n`. */
  function ClampIndex(n: nat, i: int): (r: nat)
    ensures r <= n
    ensures 0 <= i <= n ==> r == i
    ensures i < 0 && -i <= n ==> r == n + i
    ensures i > n ==> r == n
    ensures i < 0 && n + i < 0 ==> r == 0
  {
    if i < 0 then (if n + i < 0 then 0 else n + i)
    else if i > n then n
    else i
  }

  /** `s[a:]` */
  function SliceFrom(s: string, a: int): (r: string)
    ensures |r| <= |s| && r == s[|s| - |r|..]
    ensures 0 <= a <= |s| ==> r == s[a..]
    ensures a >= |s| ==> r == []
    ensures a < 0 && -a <= |s| ==> |r| == -a
    ensures a < -|s| ==> r == s
  {
    s[ClampIndex(|s|, a)..]
  }

  /** `s[:b]` */
  function SliceTo(s: string, b: int): (r: string)
    ensures |r| <= |s| && r == s[..|r|]
    ensures b == -1 && |s| > 0 ==> |r| == |s| - 1
    ensures 0 <= b <= |s| ==> r == s[..b]
    ensures b < 0 && -b <= |s| ==> |r| == |s| + b
    ensures b > |s| ==> r == s
    ensures b < -|s| ==> r == []
  {
    s[..ClampIndex(|s|, b)]
  }

  /** `s.replace(p, q)`: every occurrence of `p`, scanning left to right without overlap, becomes `q`. */
  function ReplaceAll(s: string, p: string, q: string): (r: string)
    requires |p| > 0
    ensures p == q ==> r == s
    ensures |q| == |p| ==> |r| == |s|
    ensures |q| <= |p| ==> |r| <= |s|
    decreases |s|
  {
    if |s| < |p| then s
    else if s[..|p|] == p then
      assert p == q ==> s == q + s[|p|..];
      q + ReplaceAll(s[|p|..], p, q)
    else
      assert s == [s[0]] + s[1..];
      [s[0]] + ReplaceAll(s[1..], p, q)
  }

  /** Replacing a pattern that does not occur leaves the text as it was. */
  lemma {:induction false} ReplaceAbsent(s: string, p: string, q: string)
    requires |p| > 0
    requires !Contains(s, p)
    ensures ReplaceAll(s, p, q) == s
    decreases |s|
  {
    if |s| >= |p| {
      assert !OccursAt(s, p, 0);
      assert !Contains(s[1..], p) by {
        forall k | 0 <= k <= |s[1..]|
          ensures !OccursAt(s[1..], p, k)
        {
          OccursInSuffix(s, p, 1, k);
          assert !OccursAt(s, p, 1 + k);
        }
      }
      ReplaceAbsent(s[1..], p, q);
      assert s == [s[0]] + s[1..];
    }
  }

  /** Up to the first occurrence of the pattern, the text is copied unchanged. */
  lemma {:induction false} ReplaceKeepsPrefix(s: string, p: string, q: string, j: nat)
    requires |p| > 0 && j <= |s|
    requires forall k | 0 <= k < j :: !OccursAt(s, p, k)
    ensures ReplaceAll(s, p, q) == s[..j] + ReplaceAll(s[j..], p, q)
    decreases j
  {
    if j > 0 {
      ReplaceKeepsPrefix(s, p, q, j - 1);
      assert !OccursAt(s, p, j - 1);
      ReplaceOneChar(s, p, q, j);
    }
  }

  /** One step of `ReplaceKeepsPrefix`: the character at `j - 1` does not start an occurrence. */
  lemma ReplaceOneChar(s: string, p: string, q: string, j: nat)
    requires |p| > 0 && 0 < j <= |s|
    requires !OccursAt(s, p, j - 1)
    requires ReplaceAll(s, p, q) == s[..j - 1] + ReplaceAll(s[j - 1..], p, q)
    ensures ReplaceAll(s, p, q) == s[..j] + ReplaceAll(s[j..], p, q)
  {
    if |s| - (j - 1) < |p| {
      ReplaceShort(s[j - 1..], p, q);
      ReplaceShort(s[j..], p, q);
      assert s[..j - 1] + s[j - 1..] == s[..j] + s[j..];
    } else {
      assert s[j - 1..][..|p|] == s[j - 1..j - 1 + |p|];
      ReplaceSkip(s[j - 1..], p, q);
      assert s[j - 1..][1..] == s[j..];
      assert s[..j - 1] + [s[j - 1]] == s[..j];
      assert ReplaceAll(s, p, q) == s[..j - 1] + ([s[j - 1]] + ReplaceAll(s[j..], p, q));
    }
  }

  /** A text that does not start with the pattern keeps its first character. */
  lemma ReplaceSkip(s: string, p: string, q: string)
    requires 0 < |p| <= |s|
    requires s[..|p|] != p
    ensures ReplaceAll(s, p, q) == [s[0]] + ReplaceAll(s[1..], p, q)
  {
  }

  /** A text shorter than the pattern is left alone. */
  lemma ReplaceShort(s: string, p: string, q: string)
    requires 0 < |p| && |s| < |p|
    ensures ReplaceAll(s, p, q) == s
  {
  }


  /**
    The text before the leftmost occurrence is kept, that occurrence is
    replaced, and the scan resumes right after it: this is what makes the
    replacement non-overlapping and leftmost-first.
   */
  lemma ReplaceAtFirst(s: string, p: string, q: string, i: nat)
    requires |p| > 0
    requires FirstOccurrence(s, p, i)
    ensures ReplaceAll(s, p, q) == s[..i] + q + ReplaceAll(s[i + |p|..], p, q)
  {
    ReplaceKeepsPrefix(s, p, q, i);
    ReplaceAtStart(s, p, q, i);
  }

  /** A text that starts with the pattern begins with its replacement. */
  lemma ReplaceAtStart(s: string, p: string, q: string, i: nat)
    requires |p| > 0 && OccursAt(s, p, i)
    ensures ReplaceAll(s[i..], p, q) == q + ReplaceAll(s[i + |p|..], p, q)
  {
    var u := s[i..];
    assert u[..|p|] == p;
    assert u[|p|..] == s[i + |p|..];
  }


  /** `c.upper()` for ASCII and Latin-1 lower-case letters; every other character is kept. */
  function UpperChar(c: char): char {
    if 'a' <= c <= 'z' || ('à' <= c <= 'þ' && c != '÷') then (c as int - 32) as char
    else c
  }

  /** `c.lower()` for ASCII and Latin-1 upper-case letters; every other character is kept. */
  function LowerChar(c: char): char {
    if 'A' <= c <= 'Z' || ('À' <= c <= 'Þ' && c != '×') then (c as int + 32) as char
    else c
  }

  /** `s.upper()`, character by character. */
  function Upper(s: string): (r: string)
    ensures |r| == |s|
    ensures forall i | 0 <= i < |s| :: r[i] == UpperChar(s[i])
  {
    if s == [] then [] else [UpperChar(s[0])] + Upper(s[1..])
  }

  /** `s.lower()`, character by character. */
  function Lower(s: string): (r: string)
    ensures |r| == |s|
    ensures forall i | 0 <= i < |s| :: r[i] == LowerChar(s[i])
  {
    if s == [] then [] else [LowerChar(s[0])] + Lower(s[1..])
  }

  /** Upper-casing twice is upper-casing once. */
  lemma UpperIdempotent(s: string)
    ensures Upper(Upper(s)) == Upper(s)
  {
    assert forall i | 0 <= i < |s| :: UpperChar(UpperChar(s[i])) == UpperChar(s[i]);
  }
}

=== FILE: quasijson.dfy ===
/**
  The textual repair `parseJson` applies to the panel's sensor list before
  handing it to a JSON decoder: the secure-comment wrapper is removed, the
  malformed opener of the `senrows` array is rewritten, and a fixed list of
  unquoted property names `p :` is quoted as `"p":`.
 */
module QuasiJson {
  import opened PyStr

  /** The opening of the comment the panel wraps its JSON in. */
  const SecurePrefix: string := "/*-secure-"
  /** The closing of a comment. */
  const CommentEnd: string := "*/"
  /** How the panel opens the `senrows` array: a tab and an unquoted name. */
  const BadOpener: string := "{\tsenrows : ["
  /** The valid JSON it is rewritten to. */
  const GoodOpener: string := "{\"senrows\":["

  /** The property names whose unquoted form is rewritten, in the order they are rewritten. */
  const PropertyNames: seq<string> := [
    "no", "type", "type_f", "area", "zone", "name", "attr", "cond", "cond_ok",
    "battery", "battery_ok", "tamp", "tamper", "tamper_ok", "bypass", "rssi",
    "status", "id", "su"]

  /** The unquoted form `p :` of a property name. */
  function Unquoted(p: string): string {
    p + " :"
  }

  /** The quoted form `"p":` of a property name. */
  function Quoted(p: string): string {
    "\"" + p + "\":"
  }

  /** Every pattern the repair rewrites, in the order it rewrites them. */
  function Patterns(): seq<string> {
    [SecurePrefix, CommentEnd, BadOpener] + seq(|PropertyNames|, i requires 0 <= i < |PropertyNames| => Unquoted(PropertyNames[i]))
  }

  /** The loop quoting each name of `names` in turn. */
  function QuoteNames(s: string, names: seq<string>): string
    decreases |names|
  {
    if names == [] then s
    else QuoteNames(ReplaceAll(s, Unquoted(names[0]), Quoted(names[0])), names[1..])
  }

  /** The chain of `replace` calls of `parseJson`, in order. */
  function Rewrites(s: string): string {
    var unwrapped := ReplaceAll(ReplaceAll(s, SecurePrefix, ""), CommentEnd, "");
    QuoteNames(ReplaceAll(unwrapped, BadOpener, GoodOpener), PropertyNames)
  }

  /**
    The text rewrites of `parseJson`, everything before `json.loads`. Text
    holding none of the patterns, such as well-formed JSON without those
    fragments, passes through as is.
   */
  function Repair(s: string): (r: string)
    ensures NoPattern(s) ==> r == s
  {
    RewritesIdentity(s);
    Rewrites(s)
  }

  /** None of the patterns the repair rewrites occurs in the text. */
  predicate NoPattern(s: string) {
    forall i | 0 <= i < |Patterns()| :: !Contains(s, Patterns()[i])
  }

  /** Quoting leaves alone a text in which none of the unquoted forms occurs. */
  lemma {:induction false} QuoteNamesAbsent(s: string, names: seq<string>)
    requires forall i | 0 <= i < |names| :: !Contains(s, Unquoted(names[i]))
    ensures QuoteNames(s, names) == s
    decreases |names|
  {
    if names != [] {
      ReplaceAbsent(s, Unquoted(names[0]), Quoted(names[0]));
      assert forall i | 0 <= i < |names[1..]| :: names[1..][i] == names[i + 1];
      QuoteNamesAbsent(s, names[1..]);
    }
  }

  /** The rewrite chain is the identity on text that holds none of its patterns. */
  lemma RewritesIdentity(s: string)
    ensures NoPattern(s) ==> Rewrites(s) == s
  {
    if NoPattern(s) {
      assert Patterns()[0] == SecurePrefix;
      assert Patterns()[1] == CommentEnd;
      assert Patterns()[2] == BadOpener;
      ReplaceAbsent(s, SecurePrefix, "");
      ReplaceAbsent(s, CommentEnd, "");
      ReplaceAbsent(s, BadOpener, GoodOpener);
      forall i | 0 <= i < |PropertyNames|
        ensures !Contains(s, Unquoted(PropertyNames[i]))
      {
        assert Patterns()[3 + i] == Unquoted(PropertyNames[i]);
      }
      QuoteNamesAbsent(s, PropertyNames);
    }
  }

  /**
    The repair is not idempotent: removing a comment end can join the two
    halves of another one, which a second pass then removes.
   */
  lemma RepairNotIdempotent()
    ensures Repair("**//") == "*/"
    ensures Repair(Repair("**//")) == ""
  {
    RepairJoinsCommentEnd();
    RepairRemovesCommentEnd();
  }

  /** First pass: the inner comment end is removed and the outer characters join into a new one. */
  lemma RepairJoinsCommentEnd()
    ensures Repair("**//") == "*/"
  {
    UnwrapJoinsCommentEnd();
    assert ReplaceAll("*/", BadOpener, GoodOpener) == "*/";
    ShortTextHasNoName("*/");
    QuoteNamesAbsent("*/", PropertyNames);
  }

  /** The unwrapping step of the first pass. */
  lemma UnwrapJoinsCommentEnd()
    ensures ReplaceAll(ReplaceAll("**//", SecurePrefix, ""), CommentEnd, "") == "*/"
  {
    assert ReplaceAll("**//", SecurePrefix, "") == "**//";
    assert ReplaceAll("**//", CommentEnd, "") == "*/";
  }

  /** Second pass: the joined comment end is removed. */
  lemma RepairRemovesCommentEnd()
    ensures Repair("*/") == ""
  {
    UnwrapRemovesCommentEnd();
    assert ReplaceAll("", BadOpener, GoodOpener) == "";
    ShortTextHasNoName("");
    QuoteNamesAbsent("", PropertyNames);
  }

  /** The unwrapping step of the second pass. */
  lemma UnwrapRemovesCommentEnd()
    ensures ReplaceAll(ReplaceAll("*/", SecurePrefix, ""), CommentEnd, "") == ""
  {
    assert ReplaceAll("*/", SecurePrefix, "") == "*/";
    assert ReplaceAll("*/", CommentEnd, "") == "";
  }

  /** Every unquoted form is at least four characters long, so a shorter text contains none. */
  lemma ShortTextHasNoName(s: string)
    requires |s| < 4
    ensures forall i | 0 <= i < |PropertyNames| :: !Contains(s, Unquoted(PropertyNames[i]))
  {
    forall i | 0 <= i < |PropertyNames|
      ensures !Contains(s, Unquoted(PropertyNames[i]))
    {
      assert |PropertyNames[i]| >= 2;
    }
  }
}

=== FILE: sensorlist.dfy ===
/**
  `getsensors` and `getsensor`: fetching the sensor list, repairing and
  decoding it, dropping remote controls and keypads, renaming the per-version
  identity and type fields to `id` and `type`, and indexing the rows by id.
 */
module SensorList {
  import opened Outcomes
  import opened PyStr
  import opened Versions
  import opened Transport
  import opened QuasiJson

  /** One decoded entry of `senrows`: field name to field text. */
  type Row = map<string, string>

  /** The sensors by id. */
  type Sensors = map<string, Row>

  /** `json.loads(text, strict=False)["senrows"]`, supplied by the caller. */
  type Decoder = string -> Result<seq<Row>>

  /** Sensor kinds left out of the list: remote controls and keypads. */
  const SensorTypesToIgnore: seq<string> := ["Remote Controller", "Remote Keypad", "Keypad"]

  /** The text that marks a reply from firmware other than the configured one. */
  const NotDefined: string := "is not defined"

  /** The field holding the sensor kind in the panel's rows. */
  function TypeField(v: Version): string {
    if v == Gate03 then "type_f" else "type"
  }

  /** The field holding the sensor identity in the panel's rows. */
  function IdField(v: Version): string {
    if v in {Gate02, Gate03} then "id" else "no"
  }

  /**
    The field that holds the identity after normalisation. It is `id` except
    for GATE-04, whose rows are indexed by `no` and not renamed (a branch no
    caller reaches, because `getsensors` refuses GATE-04 first).
   */
  function KeyField(v: Version): string {
    if v == Gate04 then "no" else "id"
  }

  /** The row is kept: its kind is present and not ignored. */
  predicate Kept(v: Version, row: Row) {
    TypeField(v) in row && row[TypeField(v)] !in SensorTypesToIgnore
  }

  /** The row can be processed without a `KeyError`. */
  predicate WellFormed(v: Version, row: Row) {
    TypeField(v) in row && (row[TypeField(v)] in SensorTypesToIgnore || IdField(v) in row)
  }

  /** A kept row renamed to the cross-version vocabulary. */
  function Renamed(v: Version, row: Row): (r: Row)
    requires IdField(v) in row && TypeField(v) in row
    ensures "type" in r && r["type"] == row[TypeField(v)]
    ensures KeyField(v) in r && r[KeyField(v)] == row[IdField(v)]
    ensures forall f | f in row && f !in {IdField(v), TypeField(v), "id", "type"} :: f in r && r[f] == row[f]
    ensures forall f | f in r :: f in row || f in {"id", "type"}
    ensures v in {WV1716, Gate01} ==> IdField(v) !in r
    ensures v == Gate03 ==> TypeField(v) !in r
  {
    match v
    case WV1716 | Gate01 => (row - {"no"})["id" := row["no"]]
    case Gate03 => (row - {"type_f"})["type" := row["type_f"]]
    case Gate02 | Gate04 => row
  }

  /** Every entry is stored under its own identity and has a kind that is not ignored. */
  predicate WellShaped(v: Version, m: Sensors) {
    forall k | k in m ::
      && KeyField(v) in m[k] && m[k][KeyField(v)] == k
      && "type" in m[k] && m[k]["type"] !in SensorTypesToIgnore
  }

  /** The field whose absence makes an ill-formed row raise `KeyError`: the kind first, then the identity. */
  function MissingField(v: Version, row: Row): string {
    if TypeField(v) !in row then TypeField(v) else IdField(v)
  }

  /** Row `i` is the first row that cannot be processed. */
  predicate FirstIllFormed(v: Version, rows: seq<Row>, i: int) {
    0 <= i < |rows| && !WellFormed(v, rows[i]) && forall j | 0 <= j < i :: WellFormed(v, rows[j])
  }

  /**
    The loop over `senrows`: rows are taken in order, a later row with the same
    identity replacing an earlier one; the first row lacking a needed field
    raises `KeyError` and nothing is returned.
   */
  function Normalise(v: Version, rows: seq<Row>): (r: Result<Sensors>)
    ensures r.Success? <==> forall i | 0 <= i < |rows| :: WellFormed(v, rows[i])
    ensures r.Failure? ==> r.error in {MissingKey(TypeField(v)), MissingKey(IdField(v))}
    ensures forall i | FirstIllFormed(v, rows, i) :: r == Failure(MissingKey(MissingField(v, rows[i])))
    ensures r.Success? ==> WellShaped(v, r.value)
    decreases |rows|
  {
    if rows == [] then Success(map[])
    else
      var init := rows[..|rows| - 1];
      var row := rows[|rows| - 1];
      assert forall i | 0 <= i < |init| :: init[i] == rows[i];
      match Normalise(v, init)
      case Failure(e) => Failure(e)
      case Success(m) =>
        if TypeField(v) !in row then Failure(MissingKey(TypeField(v)))
        else if row[TypeField(v)] in SensorTypesToIgnore then Success(m)
        else if IdField(v) !in row then Failure(MissingKey(IdField(v)))
        else Success(m[row[IdField(v)] := Renamed(v, row)])
  }

  /** Row `i` is kept and carries identity `k`. */
  predicate EntryFor(v: Version, rows: seq<Row>, i: int, k: string) {
    0 <= i < |rows| && Kept(v, rows[i]) && IdField(v) in rows[i] && rows[i][IdField(v)] == k
  }

  /** Row `i` is the last kept row with identity `k`. */
  predicate LastEntryFor(v: Version, rows: seq<Row>, i: int, k: string) {
    EntryFor(v, rows, i, k) && forall j | i < j < |rows| :: !EntryFor(v, rows, j, k)
  }

  /** One step of the loop: the last row is either skipped or stored over any earlier entry. */
  lemma {:induction false} NormaliseStep(v: Version, rows: seq<Row>)
    requires rows != [] && Normalise(v, rows).Success?
    ensures Normalise(v, rows[..|rows| - 1]).Success?
    ensures var row := rows[|rows| - 1];
      Kept(v, row) ==> IdField(v) in row
    ensures var row := rows[|rows| - 1];
      var m := Normalise(v, rows[..|rows| - 1]).value;
      Normalise(v, rows).value == if Kept(v, row) then m[row[IdField(v)] := Renamed(v, row)] else m
  {
  }

  /** Dropping the last row does not change which earlier rows are entries. */
  lemma EntryForPrefix(v: Version, rows: seq<Row>, i: int, k: string)
    requires rows != [] && i < |rows| - 1
    ensures EntryFor(v, rows[..|rows| - 1], i, k) <==> EntryFor(v, rows, i, k)
  {
    if 0 <= i {
      assert rows[..|rows| - 1][i] == rows[i];
    }
  }

  /** An identity is in the map exactly when some kept row carries it. */
  lemma {:induction false} NormaliseKeyAt(v: Version, rows: seq<Row>, k: string)
    requires Normalise(v, rows).Success?
    ensures k in Normalise(v, rows).value <==> exists i :: EntryFor(v, rows, i, k)
    decreases |rows|
  {
    if rows != [] {
      var init := rows[..|rows| - 1];
      var n := |rows| - 1;
      NormaliseStep(v, rows);
      NormaliseKeyAt(v, init, k);
      if k in Normalise(v, rows).value && !EntryFor(v, rows, n, k) {
        var i :| EntryFor(v, init, i, k);
        EntryForPrefix(v, rows, i, k);
      }
      if exists i :: EntryFor(v, rows, i, k) {
        var i :| EntryFor(v, rows, i, k);
        if i < n {
          EntryForPrefix(v, rows, i, k);
        }
      }
    }
  }

  /**
    The entry stored under an identity is the renamed copy of the last kept
    row carrying it; that row's index is returned.
   */
  lemma {:induction false} NormaliseValueAt(v: Version, rows: seq<Row>, k: string) returns (i: nat)
    requires Normalise(v, rows).Success? && k in Normalise(v, rows).value
    ensures LastEntryFor(v, rows, i, k)
    ensures Normalise(v, rows).value[k] == Renamed(v, rows[i])
    decreases |rows|
  {
    var n := |rows| - 1;
    NormaliseStep(v, rows);
    if EntryFor(v, rows, n, k) {
      i := n;
    } else {
      i := NormaliseValueAt(v, rows[..n], k);
      LastEntryExtends(v, rows, i, k);
    }
  }

  /** A last entry of the rows but one stays last when the final row is not an entry for the same identity. */
  lemma LastEntryExtends(v: Version, rows: seq<Row>, i: int, k: string)
    requires rows != [] && LastEntryFor(v, rows[..|rows| - 1], i, k)
    requires !EntryFor(v, rows, |rows| - 1, k)
    ensures LastEntryFor(v, rows, i, k) && rows[..|rows| - 1][i] == rows[i]
  {
    EntryForPrefix(v, rows, i, k);
    forall j | i < j < |rows| - 1
      ensures !EntryFor(v, rows, j, k)
    {
      EntryForPrefix(v, rows, j, k);
    }
  }

  /** The query `getsensors` makes: GATE-02 and GATE-03 list devices, the others sensors. */
  function SensorQuery(v: Version): Request {
    Request(Get, if v in {WV1716, Gate01} then "sensorListGet" else "deviceListGet", NoPayload)
  }

  /**
    What `getsensors` makes of a body the retry loop returned: a body naming
    an undefined action means the panel runs other firmware; otherwise the
    repaired text is decoded and its rows normalised.
   */
  function ParseSensors(v: Version, body: string, decode: Decoder): (r: Result<Sensors>)
    ensures StatusUnauthorized(body) ==> r == Failure(Unauthorized)
    ensures !StatusUnauthorized(body) && Contains(body, NotDefined) ==> r == Failure(VersionMismatch)
    ensures r.Success? ==> decode(Repair(body)).Success? && r == Normalise(v, decode(Repair(body)).value)
    ensures !StatusUnauthorized(body) && !Contains(body, NotDefined) ==> var rows := decode(Repair(body));
      && (rows.Failure? ==> r == Failure(rows.error))
      && (rows.Success? ==> r == Normalise(v, rows.value))
    ensures r.Success? ==> WellShaped(v, r.value)
  {
    if StatusUnauthorized(body) then Failure(Unauthorized)
    else if Contains(body, NotDefined) then Failure(VersionMismatch)
    else match decode(Repair(body))
      case Failure(e) => Failure(e)
      case Success(rows) => Normalise(v, rows)
  }

  /**
    A parsed list holds an identity exactly when some kept row of the decoded
    reply carries it, and then its entry is the renamed copy of the last such
    row, whose index is returned.
   */
  lemma ParsedSensorIsLastRow(v: Version, body: string, decode: Decoder, id: string) returns (i: nat)
    requires ParseSensors(v, body, decode).Success?
    requires id in ParseSensors(v, body, decode).value
    ensures decode(Repair(body)).Success?
    ensures var rows := decode(Repair(body)).value;
      LastEntryFor(v, rows, i, id) && ParseSensors(v, body, decode).value[id] == Renamed(v, rows[i])
  {
    i := NormaliseValueAt(v, decode(Repair(body)).value, id);
  }

  /** A parsed list lacks an identity exactly when no kept row of the decoded reply carries it. */
  lemma ParsedSensorAbsent(v: Version, body: string, decode: Decoder, id: string)
    requires ParseSensors(v, body, decode).Success?
    ensures decode(Repair(body)).Success?
    ensures var rows := decode(Repair(body)).value;
      id !in ParseSensors(v, body, decode).value <==> forall i :: !EntryFor(v, rows, i, id)
  {
    NormaliseKeyAt(v, decode(Repair(body)).value, id);
  }

  /**
    `getsensors`: GATE-04 is refused before any request; otherwise the list is
    fetched with one retry and the body parsed.
   */
  function GetSensors(v: Version, script: Script, decode: Decoder): (r: Exchange<Sensors>)
    ensures v == Gate04 ==> r == Exchange(Failure(VersionUnsupported("GATE-04")), [])
    ensures v != Gate04 ==> var ex := RequestWithRetry(script, SensorQuery(v), 1);
      && r.sent == ex.sent
      && (ex.outcome.Failure? ==> r.outcome == Failure(ex.outcome.error))
      && (ex.outcome.Success? ==> r.outcome == ParseSensors(v, ex.outcome.value, decode))
    ensures r.outcome.Success? ==> v != Gate04 && WellShaped(v, r.outcome.value)
  {
    if v == Gate04 then Exchange(Failure(VersionUnsupported(Name(v))), [])
    else
      var ex := RequestWithRetry(script, SensorQuery(v), 1);
      match ex.outcome
      case Failure(e) => Exchange(Failure(e), ex.sent)
      case Success(body) => Exchange(ParseSensors(v, body, decode), ex.sent)
  }

  /** A fetched list is the one parsed from the last reply to the list query. */
  lemma GetSensorsFromReply(v: Version, script: Script, decode: Decoder) returns (body: string)
    requires GetSensors(v, script, decode).outcome.Success?
    ensures var r := GetSensors(v, script, decode);
      && 0 < |r.sent|
      && ReplyAt(script, |r.sent| - 1) == Body(body)
      && ParseSensors(v, body, decode) == r.outcome
  {
    body := RequestWithRetry(script, SensorQuery(v), 1).outcome.value;
  }

  /**
    `getsensor`: the sensors are fetched again and the one with the given id
    is returned, or `None` when there is no such sensor.
   */
  function GetSensor(v: Version, script: Script, decode: Decoder, id: string): (r: Exchange<Option<Row>>)
    ensures var fetch := GetSensors(v, script, decode);
      && r.sent == fetch.sent
      && (fetch.outcome.Failure? ==> r.outcome == Failure(fetch.outcome.error))
      && (fetch.outcome.Success? ==> var m := fetch.outcome.value;
            r.outcome == Success(if id in m then Some(m[id]) else None))
    ensures r.outcome.Success? && r.outcome.value.Some? ==>
      var s := r.outcome.value.value;
      KeyField(v) in s && s[KeyField(v)] == id && "type" in s && s["type"] !in SensorTypesToIgnore
  {
    var fetch := GetSensors(v, script, decode);
    match fetch.outcome
    case Failure(e) => Exchange(Failure(e), fetch.sent)
    case Success(m) => Exchange(Success(if id in m then Some(m[id]) else None), fetch.sent)
  }

  /**
    What `getsensor` answers comes from the last reply to the list query: the
    parsed list of that reply, looked up by id.
   */
  lemma GetSensorFromReply(v: Version, script: Script, decode: Decoder, id: string) returns (body: string)
    requires GetSensor(v, script, decode, id).outcome.Success?
    ensures var r := GetSensor(v, script, decode, id);
      && ReplyAt(script, |r.sent| - 1) == Body(body)
      && ParseSensors(v, body, decode).Success?
      && var m := ParseSensors(v, body, decode).value;
      r.outcome.value == if id in m then Some(m[id]) else None
  {
    body := GetSensorsFromReply(v, script, decode);
  }
}

=== FILE: sensorviews.dfy ===
/**
  Readings derived from one sensor of the list: `getsensorstate` (open or
  closed), `getlockstate` (locked or unlocked), and the `getlocks` filter.
 */
module SensorViews {
  import opened Outcomes
  import opened PyStr
  import opened Versions
  import opened Transport
  import opened SensorList

  /** Upper-cased statuses GATE-03 and GATE-04 use for an open door (English and Danish). */
  const OpenStatuses: seq<string> := ["DOOR OPEN", "L\U{C5}S OP"]

  /** Upper-cased statuses GATE-03 and GATE-04 use for a closed door. */
  const ClosedStatuses: seq<string> := ["DOOR CLOSE", "L\U{C5}S"]

  /** The text a lock's kind contains. */
  const DoorLock: string := "Door Lock"

  /**
    The reading of one sensor: the older panels report a non-empty `cond`
    for an open door or a triggered detector; GATE-03 and GATE-04 report a
    status word, and a word outside both lists gives no reading.
   */
  function DoorOpen(v: Version, sensor: Row): (r: Result<Option<bool>>)
    ensures var field := if v in {Gate03, Gate04} then "status" else "cond";
      && (r.Success? <==> field in sensor)
      && (r.Failure? ==> r.error == MissingKey(field))
    ensures v !in {Gate03, Gate04} && r.Success? ==>
      (r.value == Some(true) <==> sensor["cond"] != []) && r.value.Some?
    ensures v in {Gate03, Gate04} && r.Success? ==>
      && (r.value == Some(true) <==> Upper(sensor["status"]) in OpenStatuses)
      && (r.value == Some(false) <==> Upper(sensor["status"]) in ClosedStatuses)
  {
    match v
    case WV1716 | Gate01 | Gate02 =>
      if "cond" !in sensor then Failure(MissingKey("cond"))
      else Success(Some(|sensor["cond"]| > 0))
    case Gate03 | Gate04 =>
      if "status" !in sensor then Failure(MissingKey("status"))
      else
        var u := Upper(sensor["status"]);
        if u in OpenStatuses then Success(Some(true))
        else if u in ClosedStatuses then Success(Some(false))
        else Success(None)
  }

  /**
    `getsensorstate`: `None` for an unknown id, otherwise the sensor's
    reading.
   */
  function GetSensorState(v: Version, script: Script, decode: Decoder, id: string): (r: Exchange<Option<bool>>)
    ensures var fetch := GetSensors(v, script, decode);
      && r.sent == fetch.sent
      && (fetch.outcome.Failure? ==> r.outcome == Failure(fetch.outcome.error))
      && (fetch.outcome.Success? && id !in fetch.outcome.value ==> r.outcome == Success(None))
      && (fetch.outcome.Success? && id in fetch.outcome.value ==>
            r.outcome == DoorOpen(v, fetch.outcome.value[id]))
  {
    var fetch := GetSensor(v, script, decode, id);
    match fetch.outcome
    case Failure(e) => Exchange(Failure(e), fetch.sent)
    case Success(None) => Exchange(Success(None), fetch.sent)
    case Success(Some(sensor)) => Exchange(DoorOpen(v, sensor), fetch.sent)
  }

  /** The three answers of `getlockstate`, the strings `locked`, `unlocked` and `unknown`. */
  datatype LockState = Locked | Unlocked | Unknown

  /** A lock reports its state with the door words: closed is locked, open is unlocked. */
  function LockReading(sensor: Row): (r: Result<LockState>)
    ensures r.Success? <==> "status" in sensor
    ensures r.Failure? ==> r.error == MissingKey("status")
    ensures r.Success? ==>
      && (r.value == Locked <==> Upper(sensor["status"]) == "DOOR CLOSE")
      && (r.value == Unlocked <==> Upper(sensor["status"]) == "DOOR OPEN")
  {
    if "status" !in sensor then Failure(MissingKey("status"))
    else
      var u := Upper(sensor["status"]);
      if u == "DOOR CLOSE" then Success(Locked)
      else if u == "DOOR OPEN" then Success(Unlocked)
      else Success(Unknown)
  }

  /** `getlockstate`: an unknown id is not checked for, so subscripting `None` fails. */
  function GetLockState(v: Version, script: Script, decode: Decoder, id: string): (r: Exchange<LockState>)
    ensures var fetch := GetSensors(v, script, decode);
      && r.sent == fetch.sent
      && (fetch.outcome.Failure? ==> r.outcome == Failure(fetch.outcome.error))
      && (fetch.outcome.Success? && id !in fetch.outcome.value ==> r.outcome == Failure(NoneSubscript))
      && (fetch.outcome.Success? && id in fetch.outcome.value ==>
            r.outcome == LockReading(fetch.outcome.value[id]))
  {
    var fetch := GetSensor(v, script, decode, id);
    match fetch.outcome
    case Failure(e) => Exchange(Failure(e), fetch.sent)
    case Success(None) => Exchange(Failure(NoneSubscript), fetch.sent)
    case Success(Some(sensor)) => Exchange(LockReading(sensor), fetch.sent)
  }

  /**
    On the English door words the lock reading is the inverse of the door
    reading: locked exactly when the door is reported closed, unlocked
    exactly when it is reported open.
   */
  lemma LockMirrorsDoor(v: Version, sensor: Row)
    requires v in {Gate03, Gate04} && "status" in sensor
    requires Upper(sensor["status"]) in {"DOOR OPEN", "DOOR CLOSE"}
    ensures LockReading(sensor) == Success(Locked) <==> DoorOpen(v, sensor) == Success(Some(false))
    ensures LockReading(sensor) == Success(Unlocked) <==> DoorOpen(v, sensor) == Success(Some(true))
  {
  }

  /**
    The Danish words are read as open or closed by `getsensorstate` but not
    as unlocked or locked by `getlockstate`.
   */
  lemma DanishLockWordsUnknown(v: Version, sensor: Row)
    requires v in {Gate03, Gate04} && "status" in sensor
    requires Upper(sensor["status"]) in {"L\U{C5}S OP", "L\U{C5}S"}
    ensures LockReading(sensor) == Success(Unknown)
    ensures DoorOpen(v, sensor).Success? && DoorOpen(v, sensor).value.Some?
  {
  }

  /**
    Both queries fetch the same list, so on the same panel answers the lock
    state of a sensor reporting a door word mirrors its sensor state.
   */
  lemma LockStateMirrorsSensorState(v: Version, script: Script, decode: Decoder, id: string)
    requires v == Gate03
    requires GetSensors(v, script, decode).outcome.Success?
    requires id in GetSensors(v, script, decode).outcome.value
    requires var s := GetSensors(v, script, decode).outcome.value[id];
      "status" in s && Upper(s["status"]) in {"DOOR OPEN", "DOOR CLOSE"}
    ensures GetLockState(v, script, decode, id).outcome == Success(Locked) <==>
      GetSensorState(v, script, decode, id).outcome == Success(Some(false))
    ensures GetLockState(v, script, decode, id).outcome == Success(Unlocked) <==>
      GetSensorState(v, script, decode, id).outcome == Success(Some(true))
  {
    LockMirrorsDoor(v, GetSensors(v, script, decode).outcome.value[id]);
  }

  /** The `getlocks` filter: the sensors whose kind mentions a door lock, unchanged. */
  function Locks(m: Sensors): (r: Sensors)
    requires forall k | k in m :: "type" in m[k]
    ensures forall k :: k in r <==> k in m && Contains(m[k]["type"], DoorLock)
    ensures forall k | k in r :: r[k] == m[k]
  {
    map k | k in m && Contains(m[k]["type"], DoorLock) :: m[k]
  }

  /** `getlocks`: the locks among a freshly fetched sensor list. */
  function GetLocks(v: Version, script: Script, decode: Decoder): (r: Exchange<Sensors>)
    ensures var fetch := GetSensors(v, script, decode);
      && r.sent == fetch.sent
      && (fetch.outcome.Failure? ==> r.outcome == Failure(fetch.outcome.error))
      && (fetch.outcome.Success? ==> r.outcome == Success(Locks(fetch.outcome.value)))
    ensures r.outcome.Success? ==> var m := GetSensors(v, script, decode).outcome.value;
      forall k :: k in r.outcome.value <==> k in m && Contains(m[k]["type"], DoorLock)
    ensures r.outcome.Success? ==> WellShaped(v, r.outcome.value)
  {
    var fetch := GetSensors(v, script, decode);
    match fetch.outcome
    case Failure(e) => Exchange(Failure(e), fetch.sent)
    case Success(m) => Exchange(Success(Locks(m)), fetch.sent)
  }
}

=== FILE: slicing.dfy ===
/**
  The scanning idiom the adapter uses twice (panel state and command result):
  find a marker with `str.find`, slice from the marker's index plus a fixed
  skip, find a delimiter in what is left, and keep the text before it.
  Because `find` answers -1 instead of failing, a missing marker or delimiter
  still yields a (shifted or truncated) slice.
 */
module Slicing {
  import opened PyStr

  /** `rest = text[a:]; rest[:rest.find(delim)]` */
  function CutFrom(text: string, a: int, delim: string): string {
    var rest := SliceFrom(text, a);
    SliceTo(rest, Find(rest, delim))
  }

  /** `ind1 = text.find(marker); CutFrom(text, ind1 + skip, delim)` */
  function CutAfter(text: string, marker: string, skip: nat, delim: string): string {
    CutFrom(text, Find(text, marker) + skip, delim)
  }

  /** An occurrence in a prefix is an occurrence in the whole text. */
  lemma OccursInPrefix(t: string, n: nat, p: string, k: int)
    requires n <= |t|
    ensures OccursAt(t[..n], p, k) ==> OccursAt(t, p, k)
  {
    if OccursAt(t[..n], p, k) {
      assert t[..n][k..k + |p|] == t[k..k + |p|];
    }
  }

  /**
    The cut never contains the delimiter: it stops before the first one, or,
    when there is none, is a prefix of a text without one.
   */
  lemma CutFromHasNoDelimiter(text: string, a: int, delim: string)
    requires |delim| > 0
    ensures !Contains(CutFrom(text, a, delim), delim)
  {
    var rest := SliceFrom(text, a);
    var f := Find(rest, delim);
    var r := CutFrom(text, a, delim);
    assert r == rest[..|r|];
    forall k | 0 <= k <= |r|
      ensures !OccursAt(r, delim, k)
    {
      OccursInPrefix(rest, |r|, delim, k);
    }
  }

  /** The cut is shorter than any non-empty text it is taken from. */
  lemma CutFromShorter(text: string, a: int, delim: string)
    requires text != []
    ensures |CutFrom(text, a, delim)| < |text|
  {
  }

  /** The leftmost occurrence is unique. */
  lemma FirstIsUnique(t: string, p: string, i: int, k: int)
    requires FirstOccurrence(t, p, i) && FirstOccurrence(t, p, k)
    ensures i == k
  {
  }

  /** When the delimiter occurs at or after `a`, the cut is the text from `a` up to its first such occurrence. */
  lemma CutFromFound(text: string, a: nat, delim: string, j: nat)
    requires a <= j
    requires OccursAt(text, delim, j)
    requires forall k | a <= k < j :: !OccursAt(text, delim, k)
    ensures CutFrom(text, a, delim) == text[a..j]
  {
    var rest := text[a..];
    assert SliceFrom(text, a) == rest;
    OccursInSuffix(text, delim, a, j - a);
    forall k | 0 <= k < j - a
      ensures !OccursAt(rest, delim, k)
    {
      OccursInSuffix(text, delim, a, k);
    }
    assert FirstOccurrence(rest, delim, j - a);
    FirstIsUnique(rest, delim, Find(rest, delim), j - a);
    assert rest[..j - a] == text[a..j];
  }

  /**
    When the delimiter does not occur from `a` on, `find` gives -1 and the
    slice `[:-1]` drops the last character of what is left.
   */
  lemma CutFromMissingDelimiter(text: string, a: nat, delim: string)
    requires a < |text|
    requires !Contains(text[a..], delim)
    ensures CutFrom(text, a, delim) == text[a..|text| - 1]
  {
    assert SliceFrom(text, a) == text[a..];
  }

  /** With the marker present, the cut starts `skip` characters after its leftmost occurrence. */
  lemma CutAfterFound(text: string, marker: string, skip: nat, delim: string, i: nat)
    requires FirstOccurrence(text, marker, i)
    ensures CutAfter(text, marker, skip, delim) == CutFrom(text, i + skip, delim)
  {
    FirstIsUnique(text, marker, Find(text, marker), i);
  }

  /** With the marker absent, `find` gives -1 and the cut starts at `skip - 1`. */
  lemma CutAfterMissing(text: string, marker: string, skip: nat, delim: string)
    requires !Contains(text, marker)
    ensures CutAfter(text, marker, skip, delim) == CutFrom(text, skip - 1, delim)
  {
  }

  /**
    The intended reading: the text strictly between the end of the leftmost
    marker and the next delimiter, when the skip is the marker's length.
   */
  lemma CutBetween(text: string, marker: string, delim: string, i: nat, j: nat)
    requires FirstOccurrence(text, marker, i)
    requires i + |marker| <= j
    requires OccursAt(text, delim, j)
    requires forall k | i + |marker| <= k < j :: !OccursAt(text, delim, k)
    ensures CutAfter(text, marker, |marker|, delim) == text[i + |marker|..j]
  {
    FirstIsUnique(text, marker, Find(text, marker), i);
    CutFromFound(text, i + |marker|, delim, j);
  }
}

=== FILE: transport.dfy ===
/**
  Requests to the panel and the authentication-retry loop around them.

  The HTTP layer is not modelled: the panel's behaviour is a script of
  replies, one consumed per request in the order the requests are made.
  A request past the end of the script is answered by the transport raising.
 */
module Transport {
  import opened Outcomes
  import opened PyStr

  /** The HTTP method. */
  datatype Verb = Get | Post

  /** The form data of a request; GET requests carry none. */
  datatype Payload =
    | NoPayload
    | PanelCondition(area: string, mode: int)
    | DeviceSwitch(id: string, switch: string)

  /** One HTTP request to `http://<host>:<port>/action/<action>`. */
  datatype Request = Request(verb: Verb, action: string, payload: Payload)

  /** What the transport does with one request: answer with a body, or raise. */
  datatype Reply = Body(text: string) | Raised

  /** The answers the panel gives, in order. */
  type Script = seq<Reply>

  /** What an operation produced and which requests it made, in order. */
  datatype Exchange<+T> = Exchange(outcome: Result<T>, sent: seq<Request>)

  /** The reply to the `k`-th request (counting from 0). */
  function ReplyAt(script: Script, k: nat): Reply {
    if k < |script| then script[k] else Raised
  }

  /** The reply to the last of the requests `sent`. */
  function LastReply(script: Script, sent: seq<Request>): Reply
    requires sent != []
  {
    ReplyAt(script, |sent| - 1)
  }

  /** The script left after `n` requests have been answered. */
  function Drop(script: Script, n: nat): (r: Script)
    ensures forall k: nat :: ReplyAt(r, k) == ReplyAt(script, n + k)
  {
    if n <= |script| then script[n..] else []
  }

  /** The last reply to requests made after `earlier` is read from the script left after `earlier`. */
  lemma LastReplyAfter(script: Script, earlier: seq<Request>, later: seq<Request>)
    requires later != []
    ensures LastReply(script, earlier + later) == LastReply(Drop(script, |earlier|), later)
  {
  }

  /** Texts by which the panel refuses the credentials. */
  const UnauthorizedMessages: seq<string> := ["Unauthorized", "Access Denied"]

  /** `statusunauthorized`: the text contains one of `UnauthorizedMessages`. */
  predicate StatusUnauthorized(text: string): (r: bool)
    ensures r <==> Contains(text, "Unauthorized") || Contains(text, "Access Denied")
  {
    assert UnauthorizedMessages[0] == "Unauthorized" && UnauthorizedMessages[1] == "Access Denied";
    AnyMessage(text, UnauthorizedMessages)
  }

  /** The `for msg in ...: if msg in text: return True` loop over a list of markers. */
  function AnyMessage(text: string, messages: seq<string>): (r: bool)
    ensures r <==> exists i | 0 <= i < |messages| :: Contains(text, messages[i])
  {
    if messages == [] then false
    else if Contains(text, messages[0]) then true
    else AnyMessage(text, messages[1..])
  }

  /** A reply that is a body the panel used to refuse the credentials. */
  predicate Denied(reply: Reply) {
    reply.Body? && StatusUnauthorized(reply.text)
  }

  /** `n` copies of the same request. */
  function Repeat(req: Request, n: nat): (r: seq<Request>)
    ensures |r| == n && forall j | 0 <= j < n :: r[j] == req
  {
    seq(n, _ => req)
  }

  /**
    `dorequestwithretry`: the request is made up to `maxretries + 1` times and
    the loop stops at the first body without an unauthorized marker, which is
    returned as it is. When every attempt was refused the call raises
    `UnauthorizedError`; a transport exception is passed on at once. With
    `maxretries < 0` the loop never runs and reading `statustext` fails.
   */
  function RequestWithRetry(script: Script, req: Request, maxretries: int): (r: Exchange<string>)
    ensures forall j | 0 <= j < |r.sent| :: r.sent[j] == req
    ensures maxretries < 0 <==> r.sent == []
    ensures maxretries < 0 <==> r.outcome == Failure(Unbound("statustext"))
    ensures |r.sent| <= maxretries + 1 || maxretries < 0
    ensures forall j | 0 <= j < |r.sent| - 1 :: Denied(ReplyAt(script, j))
    ensures r.outcome.Success? ==>
      ReplyAt(script, |r.sent| - 1) == Body(r.outcome.value) && !StatusUnauthorized(r.outcome.value)
    ensures r.outcome == Failure(Unauthorized) <==>
      maxretries >= 0 && forall j | 0 <= j <= maxretries :: Denied(ReplyAt(script, j))
    ensures r.outcome == Failure(Unauthorized) ==> |r.sent| == maxretries + 1
    ensures r.outcome == Failure(TransportFailure) ==> ReplyAt(script, |r.sent| - 1) == Raised
    ensures r.outcome.Success? || r.outcome.error in {Unauthorized, TransportFailure, Unbound("statustext")}
  {
    if maxretries + 1 <= 0 then Exchange(Failure(Unbound("statustext")), [])
    else Attempts(script, req, 0, maxretries + 1)
  }

  /** The loop of `RequestWithRetry` from attempt `k` on, all earlier attempts having been refused. */
  function Attempts(script: Script, req: Request, k: nat, n: nat): (r: Exchange<string>)
    requires k < n
    requires forall j | 0 <= j < k :: Denied(ReplyAt(script, j))
    ensures forall j | 0 <= j < |r.sent| :: r.sent[j] == req
    ensures k < |r.sent| <= n
    ensures forall j | 0 <= j < |r.sent| - 1 :: Denied(ReplyAt(script, j))
    ensures r.outcome.Success? ==>
      ReplyAt(script, |r.sent| - 1) == Body(r.outcome.value) && !StatusUnauthorized(r.outcome.value)
    ensures r.outcome == Failure(Unauthorized) <==> forall j | 0 <= j < n :: Denied(ReplyAt(script, j))
    ensures r.outcome == Failure(Unauthorized) ==> |r.sent| == n
    ensures r.outcome == Failure(TransportFailure) ==> ReplyAt(script, |r.sent| - 1) == Raised
    ensures r.outcome.Success? || r.outcome.error in {Unauthorized, TransportFailure}
    decreases n - k
  {
    match ReplyAt(script, k)
    case Raised => Exchange(Failure(TransportFailure), Repeat(req, k + 1))
    case Body(text) =>
      if !StatusUnauthorized(text) then Exchange(Success(text), Repeat(req, k + 1))
      else if k + 1 == n then Exchange(Failure(Unauthorized), Repeat(req, n))
      else Attempts(script, req, k + 1, n)
  }

  /**
    The loop stops at the first clean body: when attempts before `k` were
    refused and reply `k` is a clean body, that body is returned unchanged
    after `k + 1` identical requests.
   */
  lemma {:induction false} RetryReturnsFirstCleanBody(script: Script, req: Request, maxretries: int, k: nat, text: string)
    requires k <= maxretries
    requires forall j | 0 <= j < k :: Denied(ReplyAt(script, j))
    requires ReplyAt(script, k) == Body(text) && !StatusUnauthorized(text)
    ensures RequestWithRetry(script, req, maxretries) == Exchange(Success(text), Repeat(req, k + 1))
  {
    AttemptsReachClean(script, req, 0, maxretries + 1, k, text);
  }

  /** The loop from attempt `i` reaches the clean reply `k` and returns it. */
  lemma {:induction false} AttemptsReachClean(script: Script, req: Request, i: nat, n: nat, k: nat, text: string)
    requires i <= k < n
    requires forall j | 0 <= j < k :: Denied(ReplyAt(script, j))
    requires ReplyAt(script, k) == Body(text) && !StatusUnauthorized(text)
    ensures Attempts(script, req, i, n) == Exchange(Success(text), Repeat(req, k + 1))
    decreases k - i
  {
    if i < k {
      assert Denied(ReplyAt(script, i));
      AttemptsReachClean(script, req, i + 1, n, k, text);
    }
  }

  /**
    A session drop absorbed by the default single retry: a refusal followed by
    a clean body yields that body after exactly two identical requests.
   */
  lemma RetryAbsorbsOneRefusal(script: Script, req: Request, text: string)
    requires |script| >= 2 && Denied(script[0])
    requires script[1] == Body(text) && !StatusUnauthorized(text)
    ensures RequestWithRetry(script, req, 1) == Exchange(Success(text), [req, req])
  {
    var r := RequestWithRetry(script, req, 1);
    assert ReplyAt(script, 0) == script[0];
    assert ReplyAt(script, 1) == script[1];
    assert r.sent == [req, req];
  }

  /** Without retries, a single refusal is final. */
  lemma NoRetryRefusalIsFinal(script: Script, req: Request)
    requires |script| >= 1 && Denied(script[0])
    ensures RequestWithRetry(script, req, 0) == Exchange(Failure(Unauthorized), [req])
  {
    assert ReplyAt(script, 0) == script[0];
  }
}

=== FILE: versions.dfy ===
/**
  The five panel firmware families and the constructor's version gate.
 */
module Versions {
  import opened Outcomes
  import opened PyStr

  /** The firmware families the adapter knows. */
  datatype Version = WV1716 | Gate01 | Gate02 | Gate03 | Gate04

  /** The name a version goes by in the configuration and in `SUPPORTED_VERSIONS`. */
  function Name(v: Version): string {
    match v
    case WV1716 => "WV-1716"
    case Gate01 => "GATE-01"
    case Gate02 => "GATE-02"
    case Gate03 => "GATE-03"
    case Gate04 => "GATE-04"
  }

  /** The accepted names, in the order the adapter lists them. */
  const SupportedVersions: seq<string> := ["WV-1716", "GATE-01", "GATE-02", "GATE-03", "GATE-04"]

  /**
    The constructor's gate: the configured name is upper-cased and must be one
    of `SupportedVersions`; otherwise `VersionError` is raised, before any
    request is made.
   */
  function ParseVersion(s: string): (r: Result<Version>)
    ensures r.Success? <==> Upper(s) in SupportedVersions
    ensures r.Success? ==> Name(r.value) == Upper(s)
    ensures r.Failure? ==> r.error == VersionUnsupported(Upper(s))
  {
    var u := Upper(s);
    if u == "WV-1716" then Success(WV1716)
    else if u == "GATE-01" then Success(Gate01)
    else if u == "GATE-02" then Success(Gate02)
    else if u == "GATE-03" then Success(Gate03)
    else if u == "GATE-04" then Success(Gate04)
    else Failure(VersionUnsupported(u))
  }

  /** Version names contain no lower-case letter. */
  lemma NameIsUpper(v: Version)
    ensures Upper(Name(v)) == Name(v)
  {
    match v
    case WV1716 => UpperWV1716();
    case Gate01 => UpperGate01();
    case Gate02 => UpperGate02();
    case Gate03 => UpperGate03();
    case Gate04 => UpperGate04();
  }

  // The supported names are upper case already; one literal per lemma keeps each proof small.
  lemma UpperWV1716() ensures Upper("WV-1716") == "WV-1716" {}
  lemma UpperGate01() ensures Upper("GATE-01") == "GATE-01" {}
  lemma UpperGate02() ensures Upper("GATE-02") == "GATE-02" {}
  lemma UpperGate03() ensures Upper("GATE-03") == "GATE-03" {}
  lemma UpperGate04() ensures Upper("GATE-04") == "GATE-04" {}

  /** Every version is accepted under its own name. */
  lemma ParseName(v: Version)
    ensures ParseVersion(Name(v)) == Success(v)
  {
    NameIsUpper(v);
    match v
    case WV1716 => ParseUpperName("WV-1716");
    case Gate01 => ParseUpperName("GATE-01");
    case Gate02 => ParseUpperName("GATE-02");
    case Gate03 => ParseUpperName("GATE-03");
    case Gate04 => ParseUpperName("GATE-04");
  }

  /** Distinct versions have distinct names. */
  lemma NameInjective(v: Version, w: Version)
    ensures Name(v) == Name(w) ==> v == w
  {
  }

  /** Parsing a name that is already upper case compares it directly against the table. */
  lemma ParseUpperName(u: string)
    requires Upper(u) == u
    ensures ParseVersion(u).Success? <==> u in SupportedVersions
    ensures ParseVersion(u).Success? ==> Name(ParseVersion(u).value) == u
  {
  }

  /** The gate ignores case: a name and its upper case select the same version. */
  lemma ParseIgnoresCase(s: string)
    ensures ParseVersion(s) == ParseVersion(Upper(s))
  {
    UpperIdempotent(s);
    SameUpperSameVersion(s, Upper(s));
  }

  /** Two spellings with the same upper case select the same version. */
  lemma SameUpperSameVersion(s: string, t: string)
    requires Upper(s) == Upper(t)
    ensures ParseVersion(s) == ParseVersion(t)
  {
  }

  /** Concretely, the lower-case spelling "gate-03" selects GATE-03. */
  lemma ParseLowerCase()
    ensures ParseVersion("gate-03") == Success(Gate03)
  {
    assert Upper("gate-03") == "GATE-03";
  }
}
